=== FILE: README.md ===
# camp: instruction lifecycle and instance registry, in Dafny

camp is a command-and-control fabric. A *commander* holds a websocket
session per *soldier* (agent). Operators issue instructions over HTTP:

- A shell command, a headless-browser page inspection, a DNS lookup, an
  HTTP probe or an ICMP ping.
- The commander writes a pending record to the `instruct` ledger table.
- It then pushes the JSON directive onto a Redis list keyed by the target
  (org, group, instance name).
- The session's poll loop pops directives and forwards them to the agent.
- The agent runs the matching executor and answers with exactly one reply.
- The commander turns the reply into a ledger update keyed by the
  instruction uuid.

Agents register themselves in the `instance` table and refresh
`update_time` every ten seconds. The issue handler refuses targets that
have not refreshed within 20 seconds.

This project models that core as pure functions over explicit data. The
instruct table is a `seq` of rows, the lists are a `map` from key to
`seq<Frame>`, and the instance table is a `seq` of rows. Around them:

- **Opaque collaborators.** JSON encoding and decoding, and the `String()`
  methods, are fields of a `Codec` value. The five executors are fields of
  an `Executors` value.
- **Driver faults.** Every driver fault (GORM or Redis error) is an explicit
  boolean, and a failed write leaves its store unchanged.
- **Clock and uuids.** The clock and uuid generation are parameters. A new row's `create_time` and `update_time` are two separate readings (`Common.Stamps`), as in the source.

Module per source file:

| module | source |
|---|---|
| `Protocol` | instruction types, envelopes, codec (internal/biz/instruct.go, internal/biz/message.go) |
| `Ledger` | instruct table and instruction lists (internal/data/instruct.go) |
| `Issuance` | issuance pipeline and poll loop (internal/biz/instruct.go) |
| `Agent` | `ProcessServiceMessage` (internal/biz/websocket.go) |
| `Reports` | `ReceiveMessage`, `ProcessClientMessage` (internal/biz/message.go) |
| `PageInspect` | response classification of `InspectSinglePage` (internal/biz/chromedp.go) |
| `Registry` | instance table (internal/data/instance.go) |
| `InstanceUse` | register, touch loop, liveness (internal/biz/instance.go) |
| `IssueHandler` | the `Instruct` HTTP handler (internal/service/instruct.go) |
| `Middleware` | `GetClientIp`, `Authorization` (pkg/middleware) |
| `Lifecycle` | end-to-end composition of the above |
| `Common`, `Ordering` | option/result types, `strings.Join`, `ORDER BY ... DESC LIMIT n` |

Where the documented intent of the system and its code disagree, the
model follows the code:

- Delivery is LIFO (LPUSH then LPOP on the same end), not FIFO.
- A ledger update overwrites an already settled record, instead of each
  transition happening once.

## Model

| member | source | states |
|---|---|---|
| Protocol.TypeOfCode | internal/biz/instruct.go:13-21 | a wire code names an instruction type exactly when it is 1..5, and the type's code is that number |
| Protocol.CodeRoundTrip | internal/biz/instruct.go:15-21 | the five types and their codes are in one-to-one correspondence |
| Ledger.LPush | internal/data/instruct.go:20-23 | the frame becomes the head of the key's list; every other list is unchanged |
| Ledger.LPop | internal/data/instruct.go:25-28 | an empty or missing list gives an error and nothing changes; otherwise the head is returned and removed; other lists unchanged |
| Ledger.IssueInstructions | internal/data/instruct.go:20-23 | the push goes to the target's key exactly when the driver succeeds; a failed push leaves the lists as they were |
| Ledger.ReceiveInstructions | internal/data/instruct.go:25-28 | the pop uses the same key as the push; a failed pop returns an error and changes nothing |
| Ledger.PushThenPop | internal/data/instruct.go:21-27 | push and pop act on the same end: a pop right after a push returns the pushed frame and restores the list |
| Ledger.PushAllList | internal/data/instruct.go:22 | pushing frames one by one leaves them on the list in reverse order, ahead of what was there |
| Ledger.ListKey | internal/data/instruct.go:21 | the key is the org uuid, "_", the group uuid, "_", the instance name and the `_instructions_channel` suffix; each segment sits at its own offset, nothing dropped |
| Ledger.ListKeyInjective | internal/data/instruct.go:21 | if no component contains "_", equal keys mean equal targets |
| Ledger.ListKeyCollision | internal/data/instruct.go:21 | with "_" inside a component, two different targets share one list |
| Ledger.RecordInstruct | internal/data/instruct.go:30-33 | an insert appends exactly the row, or leaves the table unchanged on a driver error |
| Ledger.UpdateInstruct | internal/data/instruct.go:35-46 | every row with the uuid gets the new reply, result and update time; all other rows are unchanged; a failed write changes nothing |
| Ledger.UpdateKeepsIdentity | internal/data/instruct.go:39-43 | an update never changes uuid, target, type, content or creation time of any row |
| Ledger.LastUpdateWins | internal/data/instruct.go:35-46 | there is no guard on the current result: a second update overwrites a settled record |
| Ledger.Scoped | internal/data/instruct.go:51 | the rows kept are exactly the rows of the target, each as many times as the table holds it |
| Ledger.ListInstruct | internal/data/instruct.go:48-56 | at most 50 rows, all of the target, newest `create_time` first, each drawn from the table |
| Ledger.ListInstructIsNewest | internal/data/instruct.go:52-53 | the page holds min(n, 50) of the target's n rows, and any row left out is no newer than the last row shown |
| Ledger.GetInstruct | internal/data/instruct.go:58-64 | a row is returned only if its uuid and all three scope fields match; not-found exactly when no row matches |
| Ordering.SortDesc | internal/data/instruct.go:52 | `ORDER BY ... DESC` is a permutation of its input, sorted by descending key |
| Ordering.TakeKeepsNewest | internal/data/instruct.go:52-53 | after sorting, `LIMIT n` drops only rows no newer than the last kept row |
| Issuance.Directive | internal/biz/instruct.go:93-146 | the directive has kind `ServiceInstruct`, the uuid and type; its content sits in exactly the type's request field and no reply or outcome is set |
| Issuance.PendingRecord | internal/biz/instruct.go:157-168 | the ledger row carries the uuid, target, type and content, with result 0, an empty reply, and the two separate clock readings as `create_time` and `update_time` |
| Issuance.IssueInstructions | internal/biz/instruct.go:89-174 | the uuid comes back on every path; an unknown type or a directive that cannot be encoded fails and writes nothing; the record is written before the push, and a failed record pushes nothing; success means record plus push of the encoded directive to the same target |
| Issuance.PushFailureKeepsPendingRecord | internal/biz/instruct.go:157-173 | a failed push returns an error but leaves the pending record in the ledger |
| Issuance.ReceiveLoop | internal/biz/instruct.go:178-196 | the frames forwarded are the head of the target's list, one per successful pop, in order, and exactly those are consumed; other lists unchanged |
| Issuance.FailedPopForwardsNothing | internal/biz/instruct.go:186-190 | a tick whose pop fails forwards nothing and consumes nothing |
| Issuance.PushAll | internal/biz/instruct.go:173 | directives issued in order sit on the target's list in reverse issuance order; every other target's list is unchanged |
| Issuance.LifoDelivery | internal/data/instruct.go:22-27 | directives issued to an idle target are delivered last-in-first-out |
| Agent.ReplyPayload | internal/biz/websocket.go:161-342 | uuid and type are copied and the request field is echoed; result is true iff the executor returned no error, errMsg is empty or the error text; the executor's output fills the reply field even on error; ICMP always pings 4 times |
| Agent.ExecError | internal/biz/websocket.go:165-308 | each executor runs on the directive's own request field; ICMP always sends 4 echo requests; the page inspection passes the browser run's error through |
| Agent.HandleDirective | internal/biz/websocket.go:154-350 | a reply of kind `ClientInstructReply` exactly for an instruction directive of a known type; an echo, another kind or an unknown type gives none |
| Agent.RepliesFor | internal/biz/websocket.go:147-152 | an undecodable frame gives no reply; any frame gives at most one |
| Agent.RepliesAppend | internal/biz/websocket.go:141-143 | frames are handled independently: the replies to a concatenation are the concatenation of the replies |
| Agent.RepliesSingle | internal/biz/websocket.go:147-152 | a single received frame owes exactly the replies its own handling produces |
| Agent.UndecodableFrameSkipped | internal/biz/websocket.go:148-152 | a frame that does not decode is dropped and the loop goes on with the next one |
| Agent.ProcessServiceMessage | internal/biz/websocket.go:140-356 | the replies sent are exactly those owed, in order, at most one per frame, all of kind `ClientInstructReply` |
| Reports.UpdateFor | internal/biz/message.go:129-250 | an update exactly for an instruction reply of known type; keyed by the reply's uuid alone; result 1 with the type's reply on success, -1 with errMsg on failure |
| Reports.SuccessReply | internal/biz/message.go:137-222 | a command reply is stored as is; page-inspection and HTTP replies are stored as their JSON text; DNS addresses are stored joined by ","; splitting that on "," gives them back when none holds a comma; an ICMP result is stored as its JSON text, or as the marshal error text when it does not serialise |
| Reports.DnsReplyRecoverable | internal/biz/message.go:176-178 | a DNS success is stored as the addresses joined with ",", and splitting on "," gives them back when no address contains a comma |
| Reports.IcmpMarshalFailureStillSucceeds | internal/biz/message.go:212-219 | an ICMP success whose statistics do not serialise is still recorded with result 1 and the error text as reply |
| Reports.Apply | internal/biz/message.go:118-250 | an undecodable frame, a report asking for no update or a failed write changes nothing; otherwise only the rows keyed by the reply's uuid change, only in reply, result and update time: they store the report's reply text, are settled to 1 or -1 as the agent reported, and take the handling time |
| Reports.ProcessClientMessage | internal/biz/message.go:115-256 | no row ever changes uuid, target, type, content or creation time, and a row whose uuid no delivered reply names stays exactly as it was |
| Reports.ProcessAppend | internal/biz/message.go:117-126 | processing a stream in two parts is the same as processing it at once |
| Reports.ProcessSingle | internal/biz/message.go:117-126 | a single delivered frame is handled by exactly one `Apply` |
| Reports.ProcessSnoc | internal/biz/message.go:117-126 | deliveries are applied in arrival order: the last one is applied to the table the earlier ones left |
| Reports.WriteFailureOnlyLogged | internal/biz/message.go:148-153 | a failed ledger write does not stop the loop; later messages are processed against the unchanged table |
| Reports.NonReplyReportsIgnored | internal/biz/message.go:130-133 | echoes, screenshots, unknown kinds and replies of unknown type never change the ledger |
| Reports.ReceiveMessage | internal/biz/message.go:83-111 | the frames forwarded are exactly the decodable frames read before the first read error, in order; `done` is closed exactly when a read fails |
| Reports.NothingAfterReadError | internal/biz/message.go:89-98 | after a read error of either kind nothing more is forwarded |
| Reports.UndecodableFrameDropped | internal/biz/message.go:104-109 | an undecodable frame is dropped without closing the session |
| PageInspect.InfoOf | internal/biz/chromedp.go:115-125 | every recorded field is copied from the browser response |
| PageInspect.NormaliseUrl | internal/biz/chromedp.go:114 | the compared form of a response URL has no leading or trailing "/" |
| PageInspect.Trim | internal/biz/chromedp.go:114 | a trim leaves no cut character at either end of its result |
| PageInspect.TrimIsTrimmedAt | internal/biz/chromedp.go:114 | a trim is a contiguous part of its input, and everything dropped before and after it is a cut character |
| PageInspect.NormaliseUrlTrims | internal/biz/chromedp.go:114 | the compared form is the white-space trim of the URL with its slashes trimmed; it is a contiguous part of the URL, and only white space and slashes are dropped around it |
| PageInspect.TrimTwice | internal/biz/chromedp.go:114 | two trims in a row drop only characters of either kind around one contiguous part of the input |
| PageInspect.SlashedRequestNeverMatches | internal/biz/chromedp.go:114 | a requested URL that starts or ends with "/" never matches any response |
| PageInspect.TrailingSlashResponseMatches | internal/biz/chromedp.go:114 | a response whose URL is the requested one plus a trailing "/" matches, when the request has no surrounding "/" and no leading space |
| PageInspect.InspectSinglePage | internal/biz/chromedp.go:87-157 | the result's url is the requested one, the run error is passed through, the resources and home slot are those of the reference description |
| PageInspect.Classify | internal/biz/chromedp.go:105-139 | one callback: the resource list only grows, by exactly the response's entry when it is not the home page; the home slot changes exactly on a home-page response, to that response |
| PageInspect.Collect | internal/biz/chromedp.go:105-139 | after any events the url is the requested one, there are no more resources than events, and the home slot is empty or holds one of the home-page responses |
| PageInspect.ResourcesAppend | internal/biz/chromedp.go:126-137 | a new event appends exactly its own entry (one for a non-home response, none otherwise) to the end of the resource list |
| PageInspect.LastHomeAppend | internal/biz/chromedp.go:114-125 | a new matching event replaces the home slot; any other event keeps it |
| PageInspect.CollectMatchesSpec | internal/biz/chromedp.go:105-143 | the event fold yields the url, the resource list and the last home response of the reference description |
| PageInspect.CountsSplit | internal/biz/chromedp.go:114-138 | resource entries plus home matches equal the number of response events |
| PageInspect.EveryResponseFiledOnce | internal/biz/chromedp.go:114-138 | every response goes to exactly one bucket; with no match the home slot is the zero value |
| PageInspect.NoHomeCountNoHome | internal/biz/chromedp.go:89 | no matching response means no home response is recorded |
| Registry.FindTriple | internal/data/instance.go:30-34 | the lookup finds a row of the triple whenever one exists, and reports none exactly when no row matches; among several rows it picks the earliest (see Left out) |
| Registry.Register | internal/data/instance.go:26-53 | a lookup error writes nothing and returns ""; an unseen triple inserts exactly the row and returns the caller's uuid; a known triple returns the stored uuid and changes only `client_ip` and `create_time`; a failed call changes nothing |
| Registry.RefreshRows | internal/data/instance.go:44-51 | the triple's rows get the new address and creation time; uuid and update time stay; other rows unchanged |
| Registry.ReRegisterKeepsIdentity | internal/data/instance.go:44-52 | re-registering keeps the row's uuid and `update_time` |
| Registry.RegisterKeepsTriplesUnique | internal/data/instance.go:30-52 | if the table has at most one row per triple, it still has after any `Register` |
| Registry.List | internal/data/instance.go:55-64 | exactly the org's rows (and the group's when one is given), each as many times as the table holds it, newest `create_time` first |
| Registry.ListAliveInstance | internal/data/instance.go:66-81 | exactly the rows with `update_time >= now - 20`, filtered by org and group only when they are non-empty, each as many times as the table holds it, newest first |
| Registry.Get | internal/data/instance.go:83-90 | a row of the triple when one exists and the lookup succeeds; otherwise an error |
| Registry.UpdateTime | internal/data/instance.go:92-98 | only `update_time` of the rows with the uuid changes, to `now`; a failed write changes nothing |
| InstanceUse.NewInstance | internal/biz/instance.go:46-55 | the row carries the caller's org, group, name and IP, the fresh uuid, and the two clock readings as `create_time` and `update_time` (the source reads the clock once for each) |
| InstanceUse.Register | internal/biz/instance.go:45-58 | registering a new target adds exactly that row and returns its fresh uuid; a known target keeps its uuid; failure changes nothing |
| InstanceUse.FirstSuccess | internal/biz/instance.go:67-75 | the attempt that ends the retry loop is the first one that succeeds |
| InstanceUse.LastTouch | internal/biz/instance.go:81-89 | the time that sticks is the clock of the last tick whose write went through |
| InstanceUse.RegisterPhase | internal/biz/instance.go:67-75 | registration is retried until it succeeds; failed attempts leave the table unchanged |
| InstanceUse.TouchPhase | internal/biz/instance.go:78-94 | one touch per tick with the registered uuid; a failed touch is only logged |
| InstanceUse.UpdateTimeLoop | internal/biz/instance.go:62-96 | all registration attempts precede all touches; only the last attempt succeeds; every touch uses its uuid; no success means no touch and no change |
| InstanceUse.TouchStep | internal/biz/instance.go:85-88 | each tick applies `UpdateTime` to the table left by the previous ones |
| InstanceUse.GetInstanceAlive | internal/biz/instance.go:107-118 | a lookup failure or missing row is "not alive"; otherwise alive iff `now - update_time < 20` for the first row of the triple |
| InstanceUse.AliveImpliesListed | internal/biz/instance.go:107-117 | anything the issue check finds alive is also listed by `ListAliveInstance`, whose filter is `update_time >= now - 20` |
| InstanceUse.SingleRowVerdicts | internal/biz/instance.go:107-117 | for a one-row table the issue check is the strict test `now - update_time < 20` and the listing the inclusive `update_time >= now - 20` |
| InstanceUse.AliveBoundaryMismatch | internal/data/instance.go:69 | a gap of exactly 20 s is listed as alive but fails the issue check (`now - update_time < 20`); a gap of 19 s passes both |
| IssueHandler.Instruct | internal/service/instruct.go:17-56 | a bind or validation failure is 400 with no liveness check and no write; every well-formed request is liveness-checked and issued exactly when its target is alive; a dead target is 400 without writes; an issuance error is 500; success is 200 with the issued uuid |
| IssueHandler.DeadTargetWritesNothing | internal/service/instruct.go:34-38 | a request for a target that is not alive leaves ledger and lists untouched |
| IssueHandler.SuccessMeansRecordedAndQueued | internal/service/instruct.go:41-54 | a 200 answer means the request was valid, the pending record was appended and the target's list grew by one |
| IssueHandler.LiveTargetIsServed | internal/service/instruct.go:26-54 | conversely, a well-formed request for a live target whose issuance goes through is answered 200 with the issued uuid |
| Middleware.GetClientIp | pkg/middleware/header.go:5-24 | `X-Real-IP`, else the remote address, else `X-Forwarded-For` verbatim, else "0.0.0.0"; never empty |
| Middleware.FirstNonEmpty | pkg/middleware/header.go:7-21 | the first non-empty source of a priority list, or "" when all are empty |
| Middleware.ClientIpIsFirstNonEmpty | pkg/middleware/header.go:5-24 | the address is the first non-empty source in priority order; "0.0.0.0" comes out iff all are empty or that source says so |
| Middleware.ForwardedForTakenWhole | pkg/middleware/header.go:18-21 | when it is the only source, a forwarded-for header holding a comma is returned whole, comma included |
| Middleware.ContainsIffOccurs | pkg/middleware/auth.go:37 | the pattern test is plain substring occurrence |
| Middleware.Authorization | pkg/middleware/auth.go:34-61 | a URI containing "/swagger" bypasses with no token stored; else the header token, else the query token; both empty is 401 |
| Middleware.SwaggerAnywhereBypasses | pkg/middleware/auth.go:37-45 | "/swagger" anywhere in the URI, not only as a prefix, bypasses the token check |
| Middleware.UnauthorizedIff | pkg/middleware/auth.go:37-57 | a request is refused exactly when "/swagger" occurs nowhere in it and both tokens are empty |
| Lifecycle.IssuedDirectiveIsNextPop | internal/biz/instruct.go:152-173 | after a successful issuance the next pop on the target's list yields the encoded directive |
| Lifecycle.ReplyCorrelatesWithDirective | internal/biz/websocket.go:182-194 | the agent answers a directive with one reply whose ledger update is keyed by the directive's uuid, with result 1 iff the executor succeeded |
| Lifecycle.IssuedUuidComesBack | internal/biz/instruct.go:90-173 | with a codec whose decoder inverts its encoder, the pushed frame is answered by an update keyed by the uuid the issuance returned |
| Lifecycle.ReportSettlesPendingRecord | internal/biz/message.go:115-231 | a report frame handled by the commander on the ledger the issuance wrote settles the pending record: result 1 or -1, the reported reply text, the handling time, target, type and content kept; no other instruction's row changes |

## Left out

- Websocket transport: dialling, reconnecting, ping/pong and the read and write goroutines of internal/biz/websocket.go. After a failed read, the agent's read loop still forwards that read's (empty) message once it reconnects (internal/biz/websocket.go:101); this is not modelled.
- `HelloEcho` and `HeartBeat`: ticker loops that only send echo messages.
- The session handler of internal/service/connect.go. It starts the poll loop, the touch loop and the read loop; each of these is modelled on its own.
- JSON encoding and decoding and the `String()` methods are opaque functions of `Codec`. `omitempty` and field tags are not modelled.
- The executors (bash, chromedp navigation, DNS, HTTP, ICMP) are opaque functions of `Executors`. The floating-point ICMP round-trip fields are not modelled.
- The mtr fields of `InstructMessage` are carried but never set: no code path fills them.
- `Sign` (HMAC-SHA256), `Recording` and `OpenTelemetry` of pkg/middleware/auth.go: foreign crypto and logging.
- The passthrough handlers `ListAliveInstance`, `ListInstruct` and `GetInstruct` of internal/service, and the instance `HeartBeat` (a Redis key with a TTL).
- GORM and Redis connection setup (internal/data/data.go); bootstrap and dependency injection.
- Integer widths are left unbounded. Unix-second timestamps and the `int32` result never come near their bounds. The handler's `int32` type field is checked explicitly, because binding fails outside that range.
- Ledger.ListInstruct: rows with equal `create_time` come back in an order the database does not fix. The contract states only sortedness and membership, and the model picks one order. The same holds for Registry.List and Registry.ListAliveInstance.
- Ledger.GetInstruct: a query error other than not-found is not modelled; such an error is only propagated. The same holds for Ledger.ListInstruct, Registry.List and Registry.ListAliveInstance.
- Middleware.Authorization: the error branch of the pattern match cannot be taken. The pattern is a constant valid expression, so that branch is not modelled.
- The `401` body's error code comes from an external package and is not modelled; only the decision is.
- Registry.FindTriple: GORM `First` orders by the primary key, which for `Instance` (no `ID` field) is its first column, `uuid`; the model returns the earliest row instead. The two differ only when a triple has several rows. `Register` never creates such rows (Registry.RegisterKeepsTriplesUnique), but two sessions that both miss the lookup and both insert can; which row `Register`, `Get` and `GetInstanceAlive` then see is not modelled as the database would pick it.
- Registry.List and Registry.ListAliveInstance: the extra filters are added with `tx.Where(...)` without reassignment. They are modelled as applied, which is how GORM's chained statement behaves.

=== FILE: agent.dfy ===
/** The agent's directive handling, `ProcessServiceMessage`
    (internal/biz/websocket.go): each decoded directive of a known
    instruction type is executed and answered by exactly one reply. */
module Agent {
  import opened Common
  import opened Protocol
  import PageInspect

  /** The capability executors, each returning its output together with its
      error. They stand for network and operating-system calls. */
  datatype Executors = Executors(
    shell: string -> (string, Outcome),                                   // bash -c <content>
    browse: string -> (seq<PageInspect.BrowserEvent>, Outcome),           // chromedp.Run on the url
    lookupHost: string -> (seq<string>, Outcome),                         // net.Resolver.LookupHost
    httpGet: string -> (HttpInspectReply, Outcome),                       // http.Get
    icmp: (string, int) -> (Option<IcmpStatistics>, Outcome))             // pro-bing, (addr, count)

  /** Number of echo requests of every ICMP instruction. */
  const IcmpCount: int := 4

  /** The error the executor for `t` returns on the directive's request. */
  function ExecError(m: InstructMessage, t: InstructType, ex: Executors): (r: Outcome)
    // each executor runs on the directive's own request field
    ensures t == Command ==> r == ex.shell(RequestField(m, t)).1
    ensures t == Dns ==> r == ex.lookupHost(RequestField(m, t)).1
    ensures t == Http ==> r == ex.httpGet(RequestField(m, t)).1
    // ICMP always sends four echo requests
    ensures t == Icmp ==> r == ex.icmp(RequestField(m, t), 4).1
    // the page inspection reports the browser run's own error
    ensures t == ChromeDpInspect ==> r == ex.browse(RequestField(m, t)).1
  {
    match t
    case Command => ex.shell(m.commandContent).1
    case ChromeDpInspect => PageInspect.InspectSinglePage(m.chromeDpInspectUrl, ex.browse(m.chromeDpInspectUrl)).1
    case Dns => ex.lookupHost(m.dnsInspectDomain).1
    case Http => ex.httpGet(m.httpInspectUrl).1
    case Icmp => ex.icmp(m.icmpInspectAddr, IcmpCount).1
  }

  /** The reply payload for a directive of known type `t`. The executor's
      output is stored whether or not it failed. */
  function ReplyPayload(m: InstructMessage, t: InstructType, ex: Executors): (r: InstructMessage)
    ensures r.uuid == m.uuid && r.itype == m.itype
    ensures RequestField(r, t) == RequestField(m, t)
    ensures forall other :: other != t ==> RequestField(r, other) == ""
    ensures r.result <==> ExecError(m, t, ex).Pass?
    ensures r.errMsg == (if ExecError(m, t, ex).Pass? then "" else ExecError(m, t, ex).text)
    ensures t == Command ==> r.commandReply == ex.shell(m.commandContent).0
    ensures t == ChromeDpInspect ==>
              r.chromeDpInspectReply == PageInspect.InspectSinglePage(m.chromeDpInspectUrl, ex.browse(m.chromeDpInspectUrl)).0
              && r.chromeDpInspectReply.url == m.chromeDpInspectUrl
    ensures t == Dns ==> r.dnsInspectReply == ex.lookupHost(m.dnsInspectDomain).0
    ensures t == Http ==> r.httpInspectReply == ex.httpGet(m.httpInspectUrl).0
    ensures t == Icmp ==> r.icmpInspectReply == ex.icmp(m.icmpInspectAddr, 4).0
  {
    var err := ExecError(m, t, ex);
    var base := EmptyInstruct.(uuid := m.uuid, itype := m.itype, result := err.Pass?,
                               errMsg := if err.Pass? then "" else err.text);
    var r :=
      match t
      case Command =>
        base.(commandContent := m.commandContent, commandReply := ex.shell(m.commandContent).0)
      case ChromeDpInspect =>
        base.(chromeDpInspectUrl := m.chromeDpInspectUrl,
              chromeDpInspectReply := PageInspect.InspectSinglePage(m.chromeDpInspectUrl, ex.browse(m.chromeDpInspectUrl)).0)
      case Dns =>
        base.(dnsInspectDomain := m.dnsInspectDomain, dnsInspectReply := ex.lookupHost(m.dnsInspectDomain).0)
      case Http =>
        base.(httpInspectUrl := m.httpInspectUrl, httpInspectReply := ex.httpGet(m.httpInspectUrl).0)
      case Icmp =>
        base.(icmpInspectAddr := m.icmpInspectAddr, icmpInspectReply := ex.icmp(m.icmpInspectAddr, IcmpCount).0);
    OnlyRequestField(r, t);
    r
  }

  /** A message whose request fields other than `t`'s are all empty. */
  lemma OnlyRequestField(r: InstructMessage, t: InstructType)
    requires t != Command ==> r.commandContent == ""
    requires t != ChromeDpInspect ==> r.chromeDpInspectUrl == ""
    requires t != Dns ==> r.dnsInspectDomain == ""
    requires t != Http ==> r.httpInspectUrl == ""
    requires t != Icmp ==> r.icmpInspectAddr == ""
    ensures forall other :: other != t ==> RequestField(r, other) == ""
  {
  }

  /** Handles one decoded directive: a reply for an instruction of known
      type, nothing for an echo, another kind, or an unknown type. */
  function HandleDirective(msg: ServiceMessage, ex: Executors): (r: Option<ClientMessage>)
    ensures r.Some? <==> msg.kind == ServiceInstruct && TypeOfCode(msg.instruct.itype).Some?
    ensures r.Some? ==> r.value.kind == ClientInstructReply
    ensures r.Some? ==> r.value.instruct == ReplyPayload(msg.instruct, TypeOfCode(msg.instruct.itype).value, ex)
  {
    if msg.kind != ServiceInstruct then None
    else
      match TypeOfCode(msg.instruct.itype)
      case None => None
      case Some(t) => Some(ClientMessage(ClientInstructReply, "", ReplyPayload(msg.instruct, t, ex), []))
  }

  /** The replies owed for a sequence of received frames: an undecodable
      frame is skipped and the next one is handled. */
  function Replies(frames: seq<Frame>, codec: Codec, ex: Executors): seq<ClientMessage>
  {
    FlatMap(frames, (f: Frame) => RepliesFor(f, codec, ex))
  }

  function RepliesFor(frame: Frame, codec: Codec, ex: Executors): (r: seq<ClientMessage>)
    ensures |r| <= 1
    ensures codec.unmarshalDirective(frame).None? ==> r == []
  {
    match codec.unmarshalDirective(frame)
    case None => []
    case Some(msg) =>
      match HandleDirective(msg, ex)
      case None => []
      case Some(reply) => [reply]
  }

  lemma RepliesAppend(a: seq<Frame>, b: seq<Frame>, codec: Codec, ex: Executors)
    ensures Replies(a + b, codec, ex) == Replies(a, codec, ex) + Replies(b, codec, ex)
  {
    FlatMapAppend(a, b, (f: Frame) => RepliesFor(f, codec, ex));
  }

  /** One frame owes exactly the replies it is handled into. */
  lemma RepliesSingle(frame: Frame, codec: Codec, ex: Executors)
    ensures Replies([frame], codec, ex) == RepliesFor(frame, codec, ex)
  {
    FlatMapSingle(frame, (f: Frame) => RepliesFor(f, codec, ex));
  }

  /** A frame that does not decode is dropped and the loop carries on. */
  lemma UndecodableFrameSkipped(a: seq<Frame>, bad: Frame, b: seq<Frame>, codec: Codec, ex: Executors)
    requires codec.unmarshalDirective(bad).None?
    ensures Replies(a + [bad] + b, codec, ex) == Replies(a, codec, ex) + Replies(b, codec, ex)
  {
    RepliesAppend(a + [bad], b, codec, ex);
    RepliesAppend(a, [bad], codec, ex);
    RepliesSingle(bad, codec, ex);
  }

  /** The replies owed for one more frame are those of the frame appended. */
  lemma ReplyStep(frames: seq<Frame>, i: nat, codec: Codec, ex: Executors)
    requires i < |frames|
    ensures Replies(frames[..i + 1], codec, ex) == Replies(frames[..i], codec, ex) + RepliesFor(frames[i], codec, ex)
  {
    assert frames[..i + 1] == frames[..i] + [frames[i]];
    RepliesAppend(frames[..i], [frames[i]], codec, ex);
    RepliesSingle(frames[i], codec, ex);
  }

  /** `ProcessServiceMessage`: the loop over received frames, sending each
      reply as it is built. */
  method ProcessServiceMessage(frames: seq<Frame>, codec: Codec, ex: Executors) returns (sent: seq<ClientMessage>)
    ensures sent == Replies(frames, codec, ex)
    ensures |sent| <= |frames|
    ensures forall k :: 0 <= k < |sent| ==> sent[k].kind == ClientInstructReply
  {
    sent := [];
    var i := 0;
    while i < |frames|
      invariant 0 <= i <= |frames|
      invariant sent == Replies(frames[..i], codec, ex)
      invariant |sent| <= i
      invariant forall k :: 0 <= k < |sent| ==> sent[k].kind == ClientInstructReply
    {
      ghost var owed := RepliesFor(frames[i], codec, ex);
      ghost var before := sent;
      var decoded := codec.unmarshalDirective(frames[i]);
      if decoded.Some? {
        var reply := HandleDirective(decoded.value, ex);
        if reply.Some? {
          sent := sent + [reply.value];
        }
      }
      assert sent == before + owed;
      ReplyStep(frames, i, codec, ex);
      i := i + 1;
    }
    assert frames[..i] == frames;
  }
}

=== FILE: common.dfy ===
/** Shared vocabulary of the model: optional values, Go-style error
    outcomes, and the two string helpers the reply ledger relies on. */
module Common {

  /** A value that may be absent (a Go zero value or a nil pointer). */
  datatype Option<T> = None | Some(value: T)

  /** A Go `error`: `Pass` is nil, `Fail` carries the text of `Error()`. */
  datatype Outcome = Pass | Fail(text: string)

  /** The two clock readings a new row is stamped with. The source reads the
      clock once for `create_time` and again for `update_time`, so the two
      may differ when the reads straddle a second boundary. */
  datatype Stamps = Stamps(createTime: int, updateTime: int)

  /** A Go `(T, error)` pair where the value is only meaningful on success. */
  datatype Result<T> = Ok(value: T) | Err(text: string)

  /** `strings.Join(parts, sep)`. */
  function Join(parts: seq<string>, sep: string): string
  {
    if |parts| == 0 then ""
    else if |parts| == 1 then parts[0]
    else parts[0] + sep + Join(parts[1..], sep)
  }

  /** Position of the first `c` in `s`, or `|s|` when there is none. */
  function IndexOf(s: string, c: char): (i: nat)
    ensures i <= |s|
    ensures i < |s| ==> s[i] == c
    ensures forall k :: 0 <= k < i ==> s[k] != c
  {
    if |s| == 0 then 0
    else if s[0] == c then 0
    else 1 + IndexOf(s[1..], c)
  }

  /** `strings.Split(s, string(sep))`: the reference inverse of `Join`. */
  function Split(s: string, sep: char): (parts: seq<string>)
    ensures |parts| >= 1
    decreases |s|
  {
    var i := IndexOf(s, sep);
    if i == |s| then [s] else [s[..i]] + Split(s[i + 1..], sep)
  }

  /** The first separator after a separator-free prefix is the one right
      after it. */
  lemma {:induction false} IndexOfAfterPrefix(a: string, c: char, rest: string)
    requires c !in a
    ensures IndexOf(a + [c] + rest, c) == |a|
    decreases |a|
  {
    if |a| > 0 {
      assert (a + [c] + rest)[0] == a[0];
      assert (a + [c] + rest)[1..] == a[1..] + [c] + rest;
      IndexOfAfterPrefix(a[1..], c, rest);
    }
  }

  /** Splitting a separator-free head, the separator and a tail gives the
      head followed by the pieces of the tail. */
  lemma SplitAfterPrefix(a: string, c: char, rest: string)
    requires c !in a
    ensures Split(a + [c] + rest, c) == [a] + Split(rest, c)
  {
    var s := a + [c] + rest;
    IndexOfAfterPrefix(a, c, rest);
    assert s[..|a|] == a;
    assert s[|a| + 1..] == rest;
  }

  /** Joining with a one-character separator loses nothing when no part
      contains that character: splitting the joined text gives the parts back. */
  lemma {:induction false} SplitJoin(parts: seq<string>, sep: char)
    requires |parts| >= 1
    requires forall k :: 0 <= k < |parts| ==> sep !in parts[k]
    ensures Split(Join(parts, [sep]), sep) == parts
    decreases |parts|
  {
    if |parts| == 1 {
      assert Join(parts, [sep]) == parts[0];
      assert IndexOf(parts[0], sep) == |parts[0]|;
    } else {
      var rest := parts[1..];
      assert forall k :: 0 <= k < |rest| ==> rest[k] == parts[k + 1];
      SplitJoin(rest, sep);
      assert Join(parts, [sep]) == parts[0] + [sep] + Join(rest, [sep]);
      SplitAfterPrefix(parts[0], sep, Join(rest, [sep]));
      assert parts == [parts[0]] + rest;
    }
  }

  /** `f` applied to each element in order, the results concatenated. */
  function FlatMap<A, B>(xs: seq<A>, f: A -> seq<B>): seq<B>
  {
    if |xs| == 0 then [] else f(xs[0]) + FlatMap(xs[1..], f)
  }

  /** A single element flattens to its own image. */
  lemma FlatMapSingle<A, B>(x: A, f: A -> seq<B>)
    ensures FlatMap([x], f) == f(x)
  {
    var one := [x];
    assert one[1..] == [];
    assert FlatMap(one, f) == f(one[0]) + FlatMap(one[1..], f);
  }

  /** Concatenation distributes over the flattening: processing two batches
      one after the other yields the two outputs one after the other. */
  lemma {:induction false} FlatMapAppend<A, B>(xs: seq<A>, ys: seq<A>, f: A -> seq<B>)
    ensures FlatMap(xs + ys, f) == FlatMap(xs, f) + FlatMap(ys, f)
    decreases |xs|
  {
    if |xs| == 0 {
      assert xs + ys == ys;
    } else {
      assert (xs + ys)[0] == xs[0];
      assert (xs + ys)[1..] == xs[1..] + ys;
      FlatMapAppend(xs[1..], ys, f);
    }
  }
}

=== FILE: handler.dfy ===
/** The `Instruct` HTTP handler (internal/service/instruct.go): bind,
    validate, check liveness, issue, answer. */
module IssueHandler {
  import opened Common
  import Registry
  import InstanceUse
  import Issuance
  import Ledger
  import Protocol

  /** The decoded request body. */
  datatype InstructReq = InstructReq(orgUuid: string, groupUuid: string, instanceName: string,
                                     itype: int, content: string)

  /** JSON binding into the `int32` type field fails outside this range. */
  predicate InInt32(x: int)
  {
    -0x8000_0000 <= x < 0x8000_0000
  }

  /** The `required` tags: every string non-empty and the type non-zero. */
  predicate Valid(req: InstructReq)
  {
    req.orgUuid != "" && req.groupUuid != "" && req.instanceName != ""
    && req.itype != 0 && req.content != ""
  }

  /** The JSON answer: HTTP status, `errCode`, `errMsg`, and the `uuid`
      field present only on success. */
  datatype Answer = Answer(status: int, errCode: int, errMsg: string, uuid: Option<string>)

  const BadParams: Answer := Answer(400, 400, "参数异常", None)        // parameter error
  const NotOnline: Answer := Answer(400, 400, "目标实例不在线", None)  // target not online
  const SystemError: Answer := Answer(500, 500, "系统异常", None)      // system error

  /** Everything the handler reads or writes: the instance table (with the
      clock and the lookup fault of the liveness check), the ledger and the
      lists, and the surroundings of the issuance. */
  datatype World = World(instances: Registry.Table, now: int, lookupFails: bool,
                         ledger: Ledger.Table, lists: Ledger.Lists, env: Issuance.IssueEnv)

  /** The answer, which stages ran, and the stores afterwards. */
  datatype Run = Run(answer: Answer, aliveChecked: bool, issued: bool, ledger: Ledger.Table, lists: Ledger.Lists)

  /** `Instruct`. `body` is `None` when the JSON does not bind. */
  function Instruct(body: Option<InstructReq>, w: World): (r: Run)
    // a missing or malformed field: 400, no liveness check, nothing issued or written
    ensures body.None? || !InInt32(body.value.itype) || !Valid(body.value) ==>
              r.answer == BadParams && !r.aliveChecked && !r.issued
              && r.ledger == w.ledger && r.lists == w.lists
    // every well-formed request is liveness-checked, and issued exactly when the target is alive
    ensures body.Some? && InInt32(body.value.itype) && Valid(body.value) ==>
              && r.aliveChecked
              && (r.issued <==> InstanceUse.GetInstanceAlive(w.instances, body.value.orgUuid, body.value.groupUuid,
                                                             body.value.instanceName, w.now, w.lookupFails))
    // the liveness check comes first; issuance only for a live target
    ensures r.issued ==>
              && r.aliveChecked
              && InstanceUse.GetInstanceAlive(w.instances, body.value.orgUuid, body.value.groupUuid,
                                              body.value.instanceName, w.now, w.lookupFails)
    ensures r.aliveChecked && !r.issued ==> r.answer == NotOnline && r.ledger == w.ledger && r.lists == w.lists
    // every issuance error is a 500 without uuid; success is 200 with the issued uuid
    ensures r.issued ==>
              var out := Issuance.IssueInstructions(w.ledger, w.lists, body.value.orgUuid, body.value.groupUuid,
                                                    body.value.instanceName, body.value.itype, body.value.content, w.env);
              && r.ledger == out.table && r.lists == out.lists
              && (out.err.Fail? ==> r.answer == SystemError)
              && (out.err.Pass? ==> r.answer == Answer(200, 0, "ok", Some(w.env.uid)))
    ensures r.answer.status == 200 <==> r.issued && r.answer.uuid.Some?
    ensures r.answer.uuid.Some? ==> r.answer.uuid == Some(w.env.uid) && r.answer.errCode == 0
  {
    if body.None? || !InInt32(body.value.itype) || !Valid(body.value) then
      Run(BadParams, false, false, w.ledger, w.lists)
    else
      var req := body.value;
      if !InstanceUse.GetInstanceAlive(w.instances, req.orgUuid, req.groupUuid, req.instanceName, w.now, w.lookupFails) then
        Run(NotOnline, true, false, w.ledger, w.lists)
      else
        var out := Issuance.IssueInstructions(w.ledger, w.lists, req.orgUuid, req.groupUuid, req.instanceName,
                                              req.itype, req.content, w.env);
        if out.err.Fail? then Run(SystemError, true, true, out.table, out.lists)
        else Run(Answer(200, 0, "ok", Some(out.uuid)), true, true, out.table, out.lists)
  }

  /** A request for a target that is not alive leaves no ledger record and
      pushes nothing, whatever the issuance would have done. */
  lemma DeadTargetWritesNothing(req: InstructReq, w: World)
    requires !InstanceUse.GetInstanceAlive(w.instances, req.orgUuid, req.groupUuid, req.instanceName, w.now, w.lookupFails)
    ensures var r := Instruct(Some(req), w);
            !r.issued && r.answer.status == 400 && r.ledger == w.ledger && r.lists == w.lists
  {
  }

  /** A 200 answer means the pending record was written and the directive
      pushed onto the target's list. */
  lemma SuccessMeansRecordedAndQueued(req: InstructReq, w: World)
    requires Instruct(Some(req), w).answer.status == 200
    ensures Valid(req) && Protocol.TypeOfCode(req.itype).Some?
    ensures var r := Instruct(Some(req), w);
            && r.ledger == w.ledger + [Issuance.PendingRecord(w.env.uid, req.orgUuid, req.groupUuid, req.instanceName,
                                                              req.itype, req.content, w.env.now)]
            && |Ledger.ListAt(r.lists, Ledger.ListKey(req.orgUuid, req.groupUuid, req.instanceName))|
               == |Ledger.ListAt(w.lists, Ledger.ListKey(req.orgUuid, req.groupUuid, req.instanceName))| + 1
  {
  }

  /** The converse of the above: a well-formed request for a live target
      whose issuance goes through is answered 200 with the issued uuid. */
  lemma LiveTargetIsServed(req: InstructReq, w: World)
    requires InInt32(req.itype) && Valid(req)
    requires InstanceUse.GetInstanceAlive(w.instances, req.orgUuid, req.groupUuid, req.instanceName, w.now, w.lookupFails)
    requires Issuance.IssueInstructions(w.ledger, w.lists, req.orgUuid, req.groupUuid, req.instanceName,
                                        req.itype, req.content, w.env).err.Pass?
    ensures Instruct(Some(req), w).answer == Answer(200, 0, "ok", Some(w.env.uid))
    ensures Instruct(Some(req), w).issued
  {
  }
}

=== FILE: instanceuse.dfy ===
/** The instance use case (internal/biz/instance.go): building the row to
    register, the register-then-touch loop as a sequential trace, and the
    liveness test used before issuing an instruction. */
module InstanceUse {
  import opened Common
  import Registry

  /** The row `Register` asks the table to upsert: the caller's target and
      address, a fresh uuid, and one clock reading per timestamp. */
  function NewInstance(uid: string, orgUuid: string, groupUuid: string, instanceName: string,
                       clientIp: string, now: Stamps): (r: Registry.Instance)
    ensures r.uuid == uid && r.clientIp == clientIp
    ensures r.orgUuid == orgUuid && r.groupUuid == groupUuid && r.instanceName == instanceName
    ensures r.createTime == now.createTime && r.updateTime == now.updateTime
  {
    Registry.Instance(uid, orgUuid, groupUuid, instanceName, clientIp, now.createTime, now.updateTime)
  }

  /** One registration attempt: the uuid drawn, the two clock readings, and the driver
      faults it meets. */
  datatype Attempt = Attempt(uid: string, now: Stamps, faults: Registry.RegisterFaults)

  predicate Succeeds(a: Attempt)
  {
    !a.faults.lookupFails && !a.faults.writeFails
  }

  /** `Register` of the use case. */
  function Register(t: Registry.Table, orgUuid: string, groupUuid: string, instanceName: string,
                    clientIp: string, a: Attempt): (r: Registry.RegisterOutcome)
    ensures r.err.Pass? <==> Succeeds(a)
    ensures r.err.Fail? ==> r.table == t
    // a new target gets exactly one row, built from the caller's values and the clock
    ensures Succeeds(a) && Registry.FindTriple(t, orgUuid, groupUuid, instanceName).None? ==>
              r.uuid == a.uid
              && r.table == t + [Registry.Instance(a.uid, orgUuid, groupUuid, instanceName, clientIp, a.now.createTime, a.now.updateTime)]
    // a known target keeps its uuid
    ensures !a.faults.lookupFails && Registry.FindTriple(t, orgUuid, groupUuid, instanceName).Some? ==>
              r.uuid == t[Registry.FindTriple(t, orgUuid, groupUuid, instanceName).value].uuid
  {
    Registry.Register(t, NewInstance(a.uid, orgUuid, groupUuid, instanceName, clientIp, a.now), a.faults)
  }

  // ---------------------------------------------------------------------
  // UpdateTime: retry registration until it succeeds, then touch per tick
  // ---------------------------------------------------------------------

  /** One tick of the ten-second ticker: the clock and whether the write of
      `update_time` goes through. */
  datatype Tick = Tick(now: int, writeOk: bool)

  /** One step of the loop: a registration attempt or a touch, with the
      uuid it returned or used and its error. */
  datatype Step = Registered(uuid: string, err: Outcome) | Touched(uuid: string, err: Outcome)

  /** The index of the first attempt that succeeds. */
  function FirstSuccess(attempts: seq<Attempt>): (r: Option<nat>)
    ensures r.Some? ==> r.value < |attempts| && Succeeds(attempts[r.value])
    ensures r.Some? ==> forall k :: 0 <= k < r.value ==> !Succeeds(attempts[k])
    ensures r.None? <==> forall k :: 0 <= k < |attempts| ==> !Succeeds(attempts[k])
  {
    if |attempts| == 0 then None
    else if Succeeds(attempts[0]) then Some(0)
    else
      match FirstSuccess(attempts[1..])
      case None => None
      case Some(i) => Some(i + 1)
  }

  /** The clock of the last tick whose write went through. */
  function LastTouch(ticks: seq<Tick>): (r: Option<int>)
    ensures r.None? <==> forall k :: 0 <= k < |ticks| ==> !ticks[k].writeOk
    ensures r.Some? ==> exists k :: 0 <= k < |ticks| && ticks[k].writeOk && ticks[k].now == r.value
                                    && forall j :: k < j < |ticks| ==> !ticks[j].writeOk
  {
    if |ticks| == 0 then None
    else
      var last := ticks[|ticks| - 1];
      if last.writeOk then Some(last.now)
      else
        var front := ticks[..|ticks| - 1];
        var r := LastTouch(front);
        assert forall k :: 0 <= k < |front| ==> front[k] == ticks[k];
        if r.None? then r
        else
          assert exists k :: 0 <= k < |ticks| && ticks[k].writeOk && ticks[k].now == r.value
                             && forall j :: k < j < |ticks| ==> !ticks[j].writeOk by {
            var k :| 0 <= k < |front| && front[k].writeOk && front[k].now == r.value
                     && forall j :: k < j < |front| ==> !front[j].writeOk;
            assert ticks[k] == front[k];
          }
          r
  }

  /** The table after the touches: the rows with `uid` carry the clock of
      the last touch that went through; nothing else differs. */
  function AfterTouches(t: Registry.Table, uid: string, ticks: seq<Tick>): Registry.Table
  {
    match LastTouch(ticks)
    case None => t
    case Some(now) => Registry.Touch(t, uid, now)
  }

  /** The registration phase: attempts until one succeeds. Failed attempts
      leave the table as it was. Returns the uuid of the successful attempt,
      if any. */
  method RegisterPhase(table: Registry.Table, orgUuid: string, groupUuid: string, instanceName: string,
                       clientIp: string, attempts: seq<Attempt>)
    returns (steps: seq<Step>, t: Registry.Table, uid: Option<string>)
    ensures forall k :: 0 <= k < |steps| ==> steps[k].Registered?
    ensures FirstSuccess(attempts).None? ==>
              && uid.None? && t == table && |steps| == |attempts|
              && forall k :: 0 <= k < |steps| ==> steps[k].err.Fail?
    ensures FirstSuccess(attempts).Some? ==>
              var n := FirstSuccess(attempts).value;
              var reg := Register(table, orgUuid, groupUuid, instanceName, clientIp, attempts[n]);
              && |steps| == n + 1
              && (forall k :: 0 <= k < n ==> steps[k].err.Fail?)
              && steps[n] == Registered(reg.uuid, Pass)
              && uid == Some(reg.uuid) && t == reg.table
  {
    steps := [];
    t := table;
    uid := None;
    var i := 0;
    while i < |attempts| && uid.None?
      invariant 0 <= i <= |attempts|
      invariant |steps| == i
      invariant forall k :: 0 <= k < |steps| ==> steps[k].Registered?
      invariant uid.None? ==> t == table && forall k :: 0 <= k < i ==> !Succeeds(attempts[k]) && steps[k].err.Fail?
      invariant uid.Some? ==>
                  && 0 < i && FirstSuccess(attempts) == Some(i - 1)
                  && (forall k :: 0 <= k < i - 1 ==> steps[k].err.Fail?)
                  && var reg := Register(table, orgUuid, groupUuid, instanceName, clientIp, attempts[i - 1]);
                     steps[i - 1] == Registered(reg.uuid, Pass) && uid == Some(reg.uuid) && t == reg.table
    {
      var out := Register(t, orgUuid, groupUuid, instanceName, clientIp, attempts[i]);
      steps := steps + [Registered(out.uuid, out.err)];
      t := out.table;
      if out.err.Pass? {
        uid := Some(out.uuid);
        FirstSuccessAt(attempts, i);
      }
      i := i + 1;
    }
  }

  /** The touch phase: one touch per tick with the registered uuid; a failed
      touch is only logged and the loop goes on. */
  method TouchPhase(table: Registry.Table, uid: string, ticks: seq<Tick>)
    returns (steps: seq<Step>, t: Registry.Table)
    ensures |steps| == |ticks|
    ensures forall k :: 0 <= k < |ticks| ==>
              steps[k].Touched? && steps[k].uuid == uid && (steps[k].err.Pass? <==> ticks[k].writeOk)
    ensures t == AfterTouches(table, uid, ticks)
  {
    steps := [];
    t := table;
    var j := 0;
    while j < |ticks|
      invariant 0 <= j <= |ticks|
      invariant |steps| == j
      invariant forall k :: 0 <= k < j ==>
                  steps[k].Touched? && steps[k].uuid == uid && (steps[k].err.Pass? <==> ticks[k].writeOk)
      invariant t == AfterTouches(table, uid, ticks[..j])
    {
      var (res, t') := Registry.UpdateTime(t, uid, ticks[j].now, ticks[j].writeOk);
      steps := steps + [Touched(uid, res)];
      TouchStep(table, uid, ticks[..j + 1]);
      assert ticks[..j + 1][..j] == ticks[..j];
      t := t';
      j := j + 1;
    }
    assert ticks[..j] == ticks;
  }

  /** `UpdateTime` over finitely many attempts and ticks. Registration is
      retried until one attempt succeeds; only then does the touch phase
      start, one touch per tick, each with the uuid the successful attempt
      returned; a failed touch is only logged. If no attempt succeeds, no
      touch happens and the table is unchanged. */
  method UpdateTimeLoop(table: Registry.Table, orgUuid: string, groupUuid: string, instanceName: string,
                        clientIp: string, attempts: seq<Attempt>, ticks: seq<Tick>)
    returns (steps: seq<Step>, t: Registry.Table)
    ensures FirstSuccess(attempts).None? ==>
              && t == table && |steps| == |attempts|
              && forall k :: 0 <= k < |steps| ==> steps[k].Registered? && steps[k].err.Fail?
    ensures FirstSuccess(attempts).Some? ==>
              var n := FirstSuccess(attempts).value;
              var reg := Register(table, orgUuid, groupUuid, instanceName, clientIp, attempts[n]);
              && |steps| == n + 1 + |ticks|
              && (forall k :: 0 <= k < n ==> steps[k].Registered? && steps[k].err.Fail?)
              && steps[n] == Registered(reg.uuid, Pass)
              && (forall k :: 0 <= k < |ticks| ==>
                    steps[n + 1 + k].Touched? && steps[n + 1 + k].uuid == reg.uuid
                    && (steps[n + 1 + k].err.Pass? <==> ticks[k].writeOk))
              && t == AfterTouches(reg.table, reg.uuid, ticks)
  {
    var registration, uid;
    registration, t, uid := RegisterPhase(table, orgUuid, groupUuid, instanceName, clientIp, attempts);
    steps := registration;
    if uid.Some? {
      var touches;
      touches, t := TouchPhase(t, uid.value, ticks);
      steps := registration + touches;
      assert forall k :: 0 <= k < |registration| ==> steps[k] == registration[k];
      assert forall k :: 0 <= k < |ticks| ==> steps[|registration| + k] == touches[k];
    }
  }

  lemma FirstSuccessAt(attempts: seq<Attempt>, i: nat)
    requires i < |attempts| && Succeeds(attempts[i])
    requires forall k :: 0 <= k < i ==> !Succeeds(attempts[k])
    ensures FirstSuccess(attempts) == Some(i)
  {
  }

  /** Appending a tick to the touch phase: a tick whose write fails leaves
      the table as it was; one that goes through stamps the uid's rows. */
  lemma TouchStep(base: Registry.Table, uid: string, ticks: seq<Tick>)
    requires |ticks| > 0
    ensures var prev := AfterTouches(base, uid, ticks[..|ticks| - 1]);
            var last := ticks[|ticks| - 1];
            AfterTouches(base, uid, ticks) == Registry.UpdateTime(prev, uid, last.now, last.writeOk).1
  {
    var prev := ticks[..|ticks| - 1];
    var last := ticks[|ticks| - 1];
    if last.writeOk {
      TouchTwice(base, uid, LastTouch(prev), last.now);
    }
  }

  /** Stamping the same rows twice leaves the second stamp. */
  lemma TouchTwice(base: Registry.Table, uid: string, first: Option<int>, now: int)
    ensures Registry.Touch(match first case None => base case Some(f) => Registry.Touch(base, uid, f), uid, now)
         == Registry.Touch(base, uid, now)
  {
  }

  // ---------------------------------------------------------------------
  // GetInstanceAlive
  // ---------------------------------------------------------------------

  /** `GetInstanceAlive`: any lookup failure, including no row, is "not
      alive"; otherwise alive while fewer than 20 seconds have passed since
      the last refresh. */
  function GetInstanceAlive(t: Registry.Table, orgUuid: string, groupUuid: string, instanceName: string,
                            now: int, lookupFails: bool): (r: bool)
    ensures lookupFails ==> !r
    ensures (forall k :: 0 <= k < |t| ==> !Registry.SameTriple(t[k], orgUuid, groupUuid, instanceName)) ==> !r
    ensures r <==> !lookupFails && (exists k :: 0 <= k < |t| && Registry.SameTriple(t[k], orgUuid, groupUuid, instanceName)
                                       && (forall j :: 0 <= j < k ==> !Registry.SameTriple(t[j], orgUuid, groupUuid, instanceName))
                                       && now - t[k].updateTime < Registry.AliveWindow)
  {
    match Registry.Get(t, orgUuid, groupUuid, instanceName, lookupFails)
    case Err(_) => false
    case Ok(row) => now - row.updateTime < Registry.AliveWindow
  }

  /** Whatever `GetInstanceAlive` calls alive is also listed by
      `ListAliveInstance` for its org and group. */
  lemma AliveImpliesListed(t: Registry.Table, orgUuid: string, groupUuid: string, instanceName: string,
                           now: int, lookupFails: bool)
    requires GetInstanceAlive(t, orgUuid, groupUuid, instanceName, now, lookupFails)
    ensures Registry.Get(t, orgUuid, groupUuid, instanceName, lookupFails).value
              in Registry.ListAliveInstance(t, orgUuid, groupUuid, now)
  {
  }

  /** On a one-row table the two liveness tests reduce to their own
      comparisons: strict for the issue check, inclusive for the listing. */
  lemma SingleRowVerdicts(row: Registry.Instance, now: int)
    ensures GetInstanceAlive([row], row.orgUuid, row.groupUuid, row.instanceName, now, false)
            <==> now - row.updateTime < Registry.AliveWindow
    ensures row in Registry.ListAliveInstance([row], row.orgUuid, row.groupUuid, now)
            <==> row.updateTime >= now - Registry.AliveWindow
  {
    var t := [row];
    assert t[0] == row;
    assert Registry.FindTriple(t, row.orgUuid, row.groupUuid, row.instanceName) == Some(0);
  }

  /** The converse fails at the boundary: a row refreshed exactly 20 seconds
      ago is listed as alive but is not alive for the issue check, while one
      refreshed 19 seconds ago is alive for both. */
  lemma AliveBoundaryMismatch(row: Registry.Instance, now: int)
    ensures var t := [row.(updateTime := now - 20)];
            && !GetInstanceAlive(t, row.orgUuid, row.groupUuid, row.instanceName, now, false)
            && t[0] in Registry.ListAliveInstance(t, row.orgUuid, row.groupUuid, now)
    ensures var t := [row.(updateTime := now - 19)];
            && GetInstanceAlive(t, row.orgUuid, row.groupUuid, row.instanceName, now, false)
            && t[0] in Registry.ListAliveInstance(t, row.orgUuid, row.groupUuid, now)
  {
    SingleRowVerdicts(row.(updateTime := now - 20), now);
    SingleRowVerdicts(row.(updateTime := now - 19), now);
  }
}

=== FILE: issuance.dfy ===
/** The commander's issuance pipeline and the per-session poll loop
    (internal/biz/instruct.go). */
module Issuance {
  import opened Common
  import opened Protocol
  import Ledger

  /** What `IssueInstructions` draws from its surroundings: the generated
      uuid, the two clock readings of the new row, the JSON codec, and whether the ledger insert and the
      list push go through. */
  datatype IssueEnv = IssueEnv(uid: string, now: Stamps, codec: Codec, recordOk: bool, pushOk: bool)

  /** The returned uuid and error, and the two stores afterwards. */
  datatype IssueOutcome = IssueOutcome(uuid: string, err: Outcome, table: Ledger.Table, lists: Ledger.Lists)

  /** The directive for an instruction of type `t`: its content sits in the
      one request field of that type and nowhere else. */
  function Directive(uid: string, t: InstructType, content: string): (d: ServiceMessage)
    ensures d.kind == ServiceInstruct && d.message == ""
    ensures d.instruct.uuid == uid && d.instruct.itype == t.Code()
    ensures RequestField(d.instruct, t) == content
    ensures forall other :: other != t ==> RequestField(d.instruct, other) == ""
    ensures CarriesNoReply(d.instruct)
  {
    var m := EmptyInstruct.(uuid := uid, itype := t.Code());
    ServiceMessage(ServiceInstruct, "",
      match t
      case Command => m.(commandContent := content)
      case ChromeDpInspect => m.(chromeDpInspectUrl := content)
      case Dns => m.(dnsInspectDomain := content)
      case Http => m.(httpInspectUrl := content)
      case Icmp => m.(icmpInspectAddr := content))
  }

  /** The pending ledger row written for an accepted instruction. */
  function PendingRecord(uid: string, orgUuid: string, groupUuid: string, instanceName: string,
                         itype: int, content: string, now: Stamps): (r: Ledger.Instruct)
    ensures r.uuid == uid && r.itype == itype && r.content == content
    ensures Ledger.InScope(r, orgUuid, groupUuid, instanceName)
    ensures r.result == 0 && r.reply == ""
    ensures r.createTime == now.createTime && r.updateTime == now.updateTime
  {
    Ledger.Instruct(uid, orgUuid, groupUuid, instanceName, itype, content, 0, "", now.createTime, now.updateTime)
  }

  /** `IssueInstructions`: unknown type, then encoding, then the ledger
      insert, then the push; each failure stops the pipeline there. */
  function IssueInstructions(table: Ledger.Table, lists: Ledger.Lists,
                             orgUuid: string, groupUuid: string, instanceName: string,
                             itype: int, content: string, env: IssueEnv): (r: IssueOutcome)
    // the generated uuid is returned on every path
    ensures r.uuid == env.uid
    // an unknown type writes nothing
    ensures TypeOfCode(itype).None? ==> r.err.Fail? && r.table == table && r.lists == lists
    // the only possible ledger change is the pending record
    ensures r.table == table
         || r.table == table + [PendingRecord(env.uid, orgUuid, groupUuid, instanceName, itype, content, env.now)]
    // write before enqueue: a push only ever follows a successful insert
    ensures r.lists != lists ==>
              r.table == table + [PendingRecord(env.uid, orgUuid, groupUuid, instanceName, itype, content, env.now)]
    // a directive that cannot be encoded fails before anything is written
    ensures TypeOfCode(itype).Some?
            && env.codec.marshalDirective(Directive(env.uid, TypeOfCode(itype).value, content)).Err? ==>
              r.err.Fail? && r.table == table && r.lists == lists
    // a failed insert means nothing is enqueued
    ensures !env.recordOk ==> r.err.Fail? && r.lists == lists && r.table == table
    // success: the record is written and the encoded directive sits on the target's list
    ensures r.err.Pass? <==>
              TypeOfCode(itype).Some?
              && env.codec.marshalDirective(Directive(env.uid, TypeOfCode(itype).value, content)).Ok?
              && env.recordOk && env.pushOk
    ensures r.err.Pass? ==>
              && r.table == table + [PendingRecord(env.uid, orgUuid, groupUuid, instanceName, itype, content, env.now)]
              && r.lists == Ledger.LPush(lists, Ledger.ListKey(orgUuid, groupUuid, instanceName),
                                         env.codec.marshalDirective(Directive(env.uid, TypeOfCode(itype).value, content)).value)
  {
    match TypeOfCode(itype)
    case None => IssueOutcome(env.uid, Fail("unknown instruct type"), table, lists)
    case Some(t) =>
      match env.codec.marshalDirective(Directive(env.uid, t, content))
      case Err(e) => IssueOutcome(env.uid, Fail(e), table, lists)
      case Ok(frame) =>
        var (recorded, table') := Ledger.RecordInstruct(
          table, PendingRecord(env.uid, orgUuid, groupUuid, instanceName, itype, content, env.now), env.recordOk);
        if recorded.Fail? then IssueOutcome(env.uid, Fail("record to database failed"), table', lists)
        else
          var (pushed, lists') := Ledger.IssueInstructions(lists, orgUuid, groupUuid, instanceName, frame, env.pushOk);
          IssueOutcome(env.uid, pushed, table', lists')
  }

  /** A failed push leaves an auditable pending record behind. */
  lemma PushFailureKeepsPendingRecord(table: Ledger.Table, lists: Ledger.Lists,
                                      orgUuid: string, groupUuid: string, instanceName: string,
                                      t: InstructType, content: string, env: IssueEnv)
    requires env.codec.marshalDirective(Directive(env.uid, t, content)).Ok?
    requires env.recordOk && !env.pushOk
    ensures var r := IssueInstructions(table, lists, orgUuid, groupUuid, instanceName, t.Code(), content, env);
            r.err.Fail? && r.lists == lists
            && r.table == table + [PendingRecord(env.uid, orgUuid, groupUuid, instanceName, t.Code(), content, env.now)]
  {
    CodeRoundTrip(t);
  }

  // ---------------------------------------------------------------------
  // The poll loop of ReceiveInstructions
  // ---------------------------------------------------------------------

  function OkCount(ticks: seq<bool>): (n: nat)
    ensures n <= |ticks|
  {
    if |ticks| == 0 then 0 else (if ticks[0] then 1 else 0) + OkCount(ticks[1..])
  }

  function Min(a: nat, b: nat): nat { if a < b then a else b }

  /** One pop per tick (`popOk` says whether the driver answered); a frame is
      forwarded to the session only when its pop succeeded. Returns the
      forwarded frames, in order, and the lists afterwards. */
  function ReceiveLoop(lists: Ledger.Lists, orgUuid: string, groupUuid: string, instanceName: string,
                       ticks: seq<bool>): (r: (seq<Frame>, Ledger.Lists))
    ensures var l := Ledger.ListAt(lists, Ledger.ListKey(orgUuid, groupUuid, instanceName));
            && |r.0| == Min(|l|, OkCount(ticks))
            && r.0 == l[..|r.0|]
            && Ledger.ListAt(r.1, Ledger.ListKey(orgUuid, groupUuid, instanceName)) == l[|r.0|..]
    ensures forall k :: k != Ledger.ListKey(orgUuid, groupUuid, instanceName) ==>
              Ledger.ListAt(r.1, k) == Ledger.ListAt(lists, k)
    decreases |ticks|
  {
    if |ticks| == 0 then ([], lists)
    else
      var key := Ledger.ListKey(orgUuid, groupUuid, instanceName);
      var l := Ledger.ListAt(lists, key);
      var (popped, lists1) := Ledger.ReceiveInstructions(lists, orgUuid, groupUuid, instanceName, ticks[0]);
      var (more, lists2) := ReceiveLoop(lists1, orgUuid, groupUuid, instanceName, ticks[1..]);
      if popped.Ok? then
        assert |l| > 0 && popped.value == l[0] && Ledger.ListAt(lists1, key) == l[1..];
        assert [l[0]] + l[1..][..|more|] == l[..|more| + 1];
        assert l[1..][|more|..] == l[|more| + 1..];
        ([popped.value] + more, lists2)
      else
        assert Ledger.ListAt(lists1, key) == l;
        assert ticks[0] ==> l == [];
        (more, lists2)
  }

  /** A failed or empty pop forwards nothing and consumes nothing: the loop
      goes on as if that tick had not happened. */
  lemma FailedPopForwardsNothing(lists: Ledger.Lists, orgUuid: string, groupUuid: string, instanceName: string,
                                 ticks: seq<bool>)
    requires |ticks| > 0 && !ticks[0]
    ensures ReceiveLoop(lists, orgUuid, groupUuid, instanceName, ticks).0
         == ReceiveLoop(lists, orgUuid, groupUuid, instanceName, ticks[1..]).0
  {
  }

  /** Pushes a batch of directives to one target, in issuance order. */
  function PushAll(lists: Ledger.Lists, orgUuid: string, groupUuid: string, instanceName: string,
                   frames: seq<Frame>): (r: Ledger.Lists)
    ensures Ledger.ListAt(r, Ledger.ListKey(orgUuid, groupUuid, instanceName))
         == Ledger.Reverse(frames) + Ledger.ListAt(lists, Ledger.ListKey(orgUuid, groupUuid, instanceName))
    // other targets' lists are untouched
    ensures forall k :: k != Ledger.ListKey(orgUuid, groupUuid, instanceName) ==>
              Ledger.ListAt(r, k) == Ledger.ListAt(lists, k)
    decreases |frames|
  {
    if |frames| == 0 then lists
    else
      var r := PushAll(Ledger.IssueInstructions(lists, orgUuid, groupUuid, instanceName, frames[0], true).1,
                       orgUuid, groupUuid, instanceName, frames[1..]);
      assert Ledger.Reverse(frames) == Ledger.Reverse(frames[1..]) + [frames[0]];
      r
  }

  /** Delivery is last-in-first-out: directives issued one after another to
      an idle target reach it in reverse issuance order. */
  lemma LifoDelivery(lists: Ledger.Lists, orgUuid: string, groupUuid: string, instanceName: string,
                     frames: seq<Frame>, ticks: seq<bool>)
    requires Ledger.ListAt(lists, Ledger.ListKey(orgUuid, groupUuid, instanceName)) == []
    requires OkCount(ticks) == |frames|
    ensures ReceiveLoop(PushAll(lists, orgUuid, groupUuid, instanceName, frames),
                        orgUuid, groupUuid, instanceName, ticks).0 == Ledger.Reverse(frames)
  {
    var pushed := PushAll(lists, orgUuid, groupUuid, instanceName, frames);
    assert Ledger.ListAt(pushed, Ledger.ListKey(orgUuid, groupUuid, instanceName)) == Ledger.Reverse(frames);
  }
}

=== FILE: ledger.dfy ===
/** The instruction ledger table and the per-instance instruction lists
    (internal/data/instruct.go), over abstract stores. A driver failure is
    an explicit flag; a failed write leaves its store as it was. */
module Ledger {
  import opened Common
  import opened Protocol
  import Ordering

  /** One row of the `instruct` table. `result` is 0 while pending, then 1
      (success) or -1 (failure). */
  datatype Instruct = Instruct(
    uuid: string,
    orgUuid: string,
    groupUuid: string,
    instanceName: string,
    itype: int,
    content: string,
    result: int,
    reply: string,
    createTime: int,
    updateTime: int)

  /** The table, in insertion order. */
  type Table = seq<Instruct>

  /** The lists store: key to list, the head of each list at index 0. */
  type Lists = map<string, seq<Frame>>

  /** Page size of `ListInstruct`. */
  const ListLimit: nat := 50

  // ---------------------------------------------------------------------
  // Instruction lists
  // ---------------------------------------------------------------------

  /** The list key of one (org, group, instance) target. */
  function ListKey(orgUuid: string, groupUuid: string, instanceName: string): (r: string)
    ensures |r| == |orgUuid| + |groupUuid| + |instanceName| + 2 + |KeySuffix|
    ensures r[..|orgUuid|] == orgUuid && r[|orgUuid|] == '_'
    ensures r[|orgUuid| + 1..|orgUuid| + 1 + |groupUuid|] == groupUuid && r[|orgUuid| + 1 + |groupUuid|] == '_'
    ensures r[|orgUuid| + |groupUuid| + 2..|r| - |KeySuffix|] == instanceName
    ensures r[|r| - |KeySuffix|..] == KeySuffix
  {
    var tail := instanceName + KeySuffix;
    var r := orgUuid + "_" + (groupUuid + "_" + tail);
    assert r[|orgUuid| + |groupUuid| + 2..] == tail;
    assert tail[..|instanceName|] == instanceName;
    r
  }

  const KeySuffix := "_instructions_channel"

  function ListAt(lists: Lists, key: string): seq<Frame>
  {
    if key in lists then lists[key] else []
  }

  /** `LPUSH key frame`: the frame becomes the new head. */
  function LPush(lists: Lists, key: string, frame: Frame): (r: Lists)
    ensures ListAt(r, key) == [frame] + ListAt(lists, key)
    ensures forall k :: k != key ==> ListAt(r, k) == ListAt(lists, k)
  {
    lists[key := [frame] + ListAt(lists, key)]
  }

  /** `LPOP key`: removes and returns the head; an empty or missing list is
      the `redis.Nil` error. */
  function LPop(lists: Lists, key: string): (r: (Result<Frame>, Lists))
    ensures ListAt(lists, key) == [] ==> r.0.Err? && r.1 == lists
    ensures ListAt(lists, key) != [] ==>
              r.0 == Ok(ListAt(lists, key)[0]) && ListAt(r.1, key) == ListAt(lists, key)[1..]
    ensures forall k :: k != key ==> ListAt(r.1, k) == ListAt(lists, k)
  {
    var l := ListAt(lists, key);
    if |l| == 0 then (Err("redis: nil"), lists)
    else (Ok(l[0]), lists[key := l[1..]])
  }

  /** `IssueInstructions`: pushes onto the target's list unless the driver fails. */
  function IssueInstructions(lists: Lists, orgUuid: string, groupUuid: string, instanceName: string,
                             frame: Frame, pushOk: bool): (r: (Outcome, Lists))
    ensures r.0.Pass? <==> pushOk
    ensures pushOk ==> r.1 == LPush(lists, ListKey(orgUuid, groupUuid, instanceName), frame)
    ensures !pushOk ==> r.1 == lists
  {
    if pushOk then (Pass, LPush(lists, ListKey(orgUuid, groupUuid, instanceName), frame))
    else (Fail("redis: push failed"), lists)
  }

  /** `ReceiveInstructions`: pops from the same key the push used. */
  function ReceiveInstructions(lists: Lists, orgUuid: string, groupUuid: string, instanceName: string,
                               popOk: bool): (r: (Result<Frame>, Lists))
    ensures !popOk ==> r.0.Err? && r.1 == lists
    ensures popOk ==> r == LPop(lists, ListKey(orgUuid, groupUuid, instanceName))
  {
    if popOk then LPop(lists, ListKey(orgUuid, groupUuid, instanceName))
    else (Err("redis: pop failed"), lists)
  }

  /** Push and pop work on the same end: a pop right after a push returns the
      pushed frame and restores the list. */
  lemma PushThenPop(lists: Lists, orgUuid: string, groupUuid: string, instanceName: string, frame: Frame)
    ensures var pushed := IssueInstructions(lists, orgUuid, groupUuid, instanceName, frame, true).1;
            var popped := ReceiveInstructions(pushed, orgUuid, groupUuid, instanceName, true);
            popped.0 == Ok(frame)
            && forall k :: ListAt(popped.1, k) == ListAt(lists, k)
  {
  }

  /** Pushes a batch of frames in order. */
  function PushAll(lists: Lists, key: string, frames: seq<Frame>): Lists
    decreases |frames|
  {
    if |frames| == 0 then lists
    else PushAll(LPush(lists, key, frames[0]), key, frames[1..])
  }

  function Reverse<T>(s: seq<T>): (r: seq<T>)
    ensures |r| == |s|
    ensures forall k :: 0 <= k < |s| ==> r[k] == s[|s| - 1 - k]
  {
    if |s| == 0 then [] else Reverse(s[1..]) + [s[0]]
  }

  lemma {:induction false} PushAllList(lists: Lists, key: string, frames: seq<Frame>)
    ensures ListAt(PushAll(lists, key, frames), key) == Reverse(frames) + ListAt(lists, key)
    decreases |frames|
  {
    if |frames| > 0 {
      var pushed := LPush(lists, key, frames[0]);
      assert ListAt(pushed, key) == [frames[0]] + ListAt(lists, key);
      assert PushAll(lists, key, frames) == PushAll(pushed, key, frames[1..]);
      PushAllList(pushed, key, frames[1..]);
      ReverseCons(frames);
    }
  }

  lemma ReverseCons<T>(s: seq<T>)
    requires |s| > 0
    ensures Reverse(s) == Reverse(s[1..]) + [s[0]]
  {
  }

  /** With no "_" inside any component, the key determines the target. */
  lemma ListKeyInjective(o1: string, g1: string, n1: string, o2: string, g2: string, n2: string)
    requires '_' !in o1 && '_' !in g1 && '_' !in n1
    requires '_' !in o2 && '_' !in g2 && '_' !in n2
    requires ListKey(o1, g1, n1) == ListKey(o2, g2, n2)
    ensures o1 == o2 && g1 == g2 && n1 == n2
  {
    SplitAtFirstUnderscore(o1, g1 + "_" + (n1 + KeySuffix), o2, g2 + "_" + (n2 + KeySuffix));
    SplitAtFirstUnderscore(g1, n1 + KeySuffix, g2, n2 + KeySuffix);
    assert |n1| == |n2|;
    assert n1 == (n1 + KeySuffix)[..|n1|] && n2 == (n2 + KeySuffix)[..|n2|];
  }

  lemma SplitAtFirstUnderscore(a1: string, r1: string, a2: string, r2: string)
    requires '_' !in a1 && '_' !in a2
    requires a1 + "_" + r1 == a2 + "_" + r2
    ensures a1 == a2 && r1 == r2
  {
    var s := a1 + "_" + r1;
    var i := IndexOf(s, '_');
    assert s[|a1|] == '_' && s[|a2|] == '_';
    assert forall k :: 0 <= k < |a1| ==> s[k] == a1[k];
    assert forall k :: 0 <= k < |a2| ==> s[k] == a2[k];
    assert i == |a1| && i == |a2|;
    assert a1 == s[..|a1|] && a2 == s[..|a2|];
    assert r1 == s[|a1| + 1..] && r2 == s[|a2| + 1..];
  }

  /** When a component contains "_", two different targets share one list. */
  lemma ListKeyCollision()
    ensures ListKey("a_b", "c", "d") == ListKey("a", "b_c", "d")
  {
  }

  // ---------------------------------------------------------------------
  // The instruct table
  // ---------------------------------------------------------------------

  /** `RecordInstruct`: inserts the row unless the driver fails. */
  function RecordInstruct(table: Table, row: Instruct, insertOk: bool): (r: (Outcome, Table))
    ensures r.0.Pass? <==> insertOk
    ensures insertOk ==> r.1 == table + [row]
    ensures !insertOk ==> r.1 == table
  {
    if insertOk then (Pass, table + [row]) else (Fail("insert failed"), table)
  }

  /** The row after an update with `reply`, `result` at time `now`. */
  function Updated(row: Instruct, reply: string, result: int, now: int): Instruct
  {
    row.(reply := reply, result := result, updateTime := now)
  }

  /** `UpdateInstruct`: every row with the given uuid gets the new reply,
      result and update time, whatever its current result; nothing else
      changes. */
  function UpdateInstruct(table: Table, uuid: string, reply: string, result: int, now: int, writeOk: bool)
    : (r: (Outcome, Table))
    ensures r.0.Pass? <==> writeOk
    ensures |r.1| == |table|
    ensures !writeOk ==> r.1 == table
    ensures writeOk ==> forall i :: 0 <= i < |table| ==>
              r.1[i] == (if table[i].uuid == uuid then Updated(table[i], reply, result, now) else table[i])
  {
    if !writeOk then (Fail("update failed"), table)
    else (Pass, UpdateRows(table, uuid, reply, result, now))
  }

  function UpdateRows(table: Table, uuid: string, reply: string, result: int, now: int): (r: Table)
    ensures |r| == |table|
    ensures forall i :: 0 <= i < |table| ==>
              r[i] == (if table[i].uuid == uuid then Updated(table[i], reply, result, now) else table[i])
  {
    if |table| == 0 then []
    else
      [if table[0].uuid == uuid then Updated(table[0], reply, result, now) else table[0]]
      + UpdateRows(table[1..], uuid, reply, result, now)
  }

  /** Two versions of one row that agree on everything an update may not
      touch: identity, scope, type, content and creation time. */
  predicate SameIdentity(a: Instruct, b: Instruct)
  {
    && a.uuid == b.uuid && a.orgUuid == b.orgUuid && a.groupUuid == b.groupUuid
    && a.instanceName == b.instanceName && a.itype == b.itype && a.content == b.content
    && a.createTime == b.createTime
  }

  /** An update touches only `reply`, `result` and `update_time`; the
      identity, scope, type, content and creation time of every row stay. */
  lemma UpdateKeepsIdentity(table: Table, uuid: string, reply: string, result: int, now: int, writeOk: bool)
    ensures var t := UpdateInstruct(table, uuid, reply, result, now, writeOk).1;
            forall i :: 0 <= i < |table| ==> SameIdentity(t[i], table[i])
  {
  }

  /** There is no guard on the current result: a second update of the same
      uuid replaces the first, even when the first was terminal. */
  lemma LastUpdateWins(table: Table, uuid: string, reply1: string, result1: int, now1: int,
                       reply2: string, result2: int, now2: int)
    ensures var t1 := UpdateInstruct(table, uuid, reply1, result1, now1, true).1;
            var t2 := UpdateInstruct(t1, uuid, reply2, result2, now2, true).1;
            t2 == UpdateInstruct(table, uuid, reply2, result2, now2, true).1
  {
    var t1 := UpdateInstruct(table, uuid, reply1, result1, now1, true).1;
    var t2 := UpdateInstruct(t1, uuid, reply2, result2, now2, true).1;
    var t3 := UpdateInstruct(table, uuid, reply2, result2, now2, true).1;
    assert forall i :: 0 <= i < |table| ==> t2[i] == t3[i];
  }

  predicate InScope(row: Instruct, orgUuid: string, groupUuid: string, instanceName: string)
  {
    row.orgUuid == orgUuid && row.groupUuid == groupUuid && row.instanceName == instanceName
  }

  function Scoped(table: Table, orgUuid: string, groupUuid: string, instanceName: string): (r: Table)
    ensures forall row :: row in r ==> InScope(row, orgUuid, groupUuid, instanceName)
    ensures forall row :: row in table && InScope(row, orgUuid, groupUuid, instanceName) ==> row in r
    ensures multiset(r) <= multiset(table)
    // every row of the target is kept as often as the table holds it, and no other row
    ensures forall row :: multiset(r)[row]
              == if InScope(row, orgUuid, groupUuid, instanceName) then multiset(table)[row] else 0
  {
    if |table| == 0 then []
    else
      assert table == [table[0]] + table[1..];
      (if InScope(table[0], orgUuid, groupUuid, instanceName) then [table[0]] else [])
      + Scoped(table[1..], orgUuid, groupUuid, instanceName)
  }

  function CreateTime(row: Instruct): int { row.createTime }

  /** `ListInstruct`: rows of the target only, newest `create_time` first,
      at most 50 of them. */
  function ListInstruct(table: Table, orgUuid: string, groupUuid: string, instanceName: string): (r: Table)
    ensures |r| <= ListLimit
    ensures forall k :: 0 <= k < |r| ==> InScope(r[k], orgUuid, groupUuid, instanceName)
    ensures Ordering.SortedDesc(r, CreateTime)
    ensures multiset(r) <= multiset(table)
  {
    var scoped := Scoped(table, orgUuid, groupUuid, instanceName);
    var sorted := Ordering.SortDesc(scoped, CreateTime);
    var r := Ordering.Take(sorted, ListLimit);
    Ordering.TakeIsSubMultiset(sorted, ListLimit);
    PageInScope(r, scoped, orgUuid, groupUuid, instanceName);
    r
  }

  /** Every row of a sub-multiset of the target's rows is the target's. */
  lemma PageInScope(r: Table, scoped: Table, orgUuid: string, groupUuid: string, instanceName: string)
    requires multiset(r) <= multiset(scoped)
    requires forall row :: row in scoped ==> InScope(row, orgUuid, groupUuid, instanceName)
    ensures forall k :: 0 <= k < |r| ==> InScope(r[k], orgUuid, groupUuid, instanceName)
  {
    forall k | 0 <= k < |r|
      ensures InScope(r[k], orgUuid, groupUuid, instanceName)
    {
      assert r[k] in multiset(scoped);
    }
  }

  /** The page is the newest part of the target's rows: it is full whenever
      the target has 50 rows or more, and any row left off it is no newer
      than the last row on it. */
  lemma ListInstructIsNewest(table: Table, orgUuid: string, groupUuid: string, instanceName: string, row: Instruct)
    ensures var n := |Scoped(table, orgUuid, groupUuid, instanceName)|;
            |ListInstruct(table, orgUuid, groupUuid, instanceName)| == if n < ListLimit then n else ListLimit
    ensures var r := ListInstruct(table, orgUuid, groupUuid, instanceName);
            row in table && InScope(row, orgUuid, groupUuid, instanceName) && row !in r ==>
              |r| == ListLimit && row.createTime <= r[ListLimit - 1].createTime
  {
    var scoped := Scoped(table, orgUuid, groupUuid, instanceName);
    var sorted := Ordering.SortDesc(scoped, CreateTime);
    var r := ListInstruct(table, orgUuid, groupUuid, instanceName);
    assert r == Ordering.Take(sorted, ListLimit);
    if row in table && InScope(row, orgUuid, groupUuid, instanceName) && row !in r {
      assert row in multiset(scoped);
      assert row in sorted;
      Ordering.TakeKeepsNewest(sorted, CreateTime, ListLimit, row);
    }
  }

  /** `GetInstruct`: the first row matching the uuid and all three scope
      fields; no such row is the not-found error. */
  function GetInstruct(table: Table, orgUuid: string, groupUuid: string, instanceName: string, uuid: string)
    : (r: Result<Instruct>)
    ensures r.Ok? ==> r.value in table && r.value.uuid == uuid && InScope(r.value, orgUuid, groupUuid, instanceName)
    ensures r.Err? <==> forall row :: row in table ==> !(row.uuid == uuid && InScope(row, orgUuid, groupUuid, instanceName))
  {
    if |table| == 0 then Err("record not found")
    else if table[0].uuid == uuid && InScope(table[0], orgUuid, groupUuid, instanceName) then Ok(table[0])
    else
      var r := GetInstruct(table[1..], orgUuid, groupUuid, instanceName, uuid);
      assert forall row :: row in table ==> row == table[0] || row in table[1..];
      r
  }
}

=== FILE: lifecycle.dfy ===
/** The instruction lifecycle end to end: issue on the commander, pop by
    the session, execute on the agent, report back, and update the ledger.
    Each step is the model of its own source file; these lemmas compose
    them and follow the instruction's uuid through. */
module Lifecycle {
  import opened Common
  import opened Protocol
  import Ledger
  import Issuance
  import Agent
  import Reports

  /** After a successful issuance the next pop on the target's list yields
      the encoded directive, whatever was queued before it. */
  lemma IssuedDirectiveIsNextPop(table: Ledger.Table, lists: Ledger.Lists,
                                 orgUuid: string, groupUuid: string, instanceName: string,
                                 t: InstructType, content: string, env: Issuance.IssueEnv)
    requires Issuance.IssueInstructions(table, lists, orgUuid, groupUuid, instanceName, t.Code(), content, env).err.Pass?
    ensures var issued := Issuance.IssueInstructions(table, lists, orgUuid, groupUuid, instanceName, t.Code(), content, env);
            var frame := env.codec.marshalDirective(Issuance.Directive(env.uid, t, content)).value;
            var popped := Ledger.ReceiveInstructions(issued.lists, orgUuid, groupUuid, instanceName, true);
            && popped.0 == Ok(frame)
            && Ledger.ListAt(popped.1, Ledger.ListKey(orgUuid, groupUuid, instanceName))
               == Ledger.ListAt(lists, Ledger.ListKey(orgUuid, groupUuid, instanceName))
  {
    CodeRoundTrip(t);
  }

  /** The agent answers a decodable directive of a known type with exactly
      one reply, and the commander turns that reply into an update keyed by
      the directive's uuid whose result is 1 exactly when the executor
      succeeded. */
  lemma ReplyCorrelatesWithDirective(codec: Codec, uid: string, t: InstructType, content: string,
                                     frame: Frame, ex: Agent.Executors)
    requires codec.unmarshalDirective(frame) == Some(Issuance.Directive(uid, t, content))
    ensures var replies := Agent.Replies([frame], codec, ex);
            && |replies| == 1
            && replies[0].kind == ClientInstructReply
            && replies[0].instruct.uuid == uid
            && Reports.UpdateFor(replies[0], codec).Some?
            && Reports.UpdateFor(replies[0], codec).value.uuid == uid
            && (Reports.UpdateFor(replies[0], codec).value.result == 1
                <==> Agent.ExecError(Issuance.Directive(uid, t, content).instruct, t, ex).Pass?)
  {
    Agent.RepliesSingle(frame, codec, ex);
    CodeRoundTrip(t);
  }

  /** Under a codec whose decoder inverts its encoder, the frame an issuance
      pushes is answered by a reply keyed by the uuid the issuance returned. */
  lemma IssuedUuidComesBack(table: Ledger.Table, lists: Ledger.Lists,
                            orgUuid: string, groupUuid: string, instanceName: string,
                            t: InstructType, content: string, env: Issuance.IssueEnv, ex: Agent.Executors)
    requires DirectiveRoundTrips(env.codec)
    requires Issuance.IssueInstructions(table, lists, orgUuid, groupUuid, instanceName, t.Code(), content, env).err.Pass?
    ensures var issued := Issuance.IssueInstructions(table, lists, orgUuid, groupUuid, instanceName, t.Code(), content, env);
            var popped := Ledger.ReceiveInstructions(issued.lists, orgUuid, groupUuid, instanceName, true);
            && popped.0.Ok?
            && var replies := Agent.Replies([popped.0.value], env.codec, ex);
               && |replies| == 1
               && Reports.UpdateFor(replies[0], env.codec).Some?
               && Reports.UpdateFor(replies[0], env.codec).value.uuid == issued.uuid
  {
    IssuedDirectiveIsNextPop(table, lists, orgUuid, groupUuid, instanceName, t, content, env);
    var frame := env.codec.marshalDirective(Issuance.Directive(env.uid, t, content)).value;
    assert env.codec.unmarshalDirective(frame) == Some(Issuance.Directive(env.uid, t, content));
    ReplyCorrelatesWithDirective(env.codec, env.uid, t, content, frame, ex);
  }

  /** The agent's report, received as a frame and handled by the commander
      on the ledger the issuance wrote, settles the pending record: its
      result becomes 1 or -1, it stores the reported reply text and the
      handling time, and its target, type and content stay as issued. No
      other instruction's row changes. */
  lemma ReportSettlesPendingRecord(table: Ledger.Table, lists: Ledger.Lists,
                                   orgUuid: string, groupUuid: string, instanceName: string,
                                   t: InstructType, content: string, env: Issuance.IssueEnv,
                                   frame: Frame, reply: ClientMessage, now: int)
    requires Issuance.IssueInstructions(table, lists, orgUuid, groupUuid, instanceName, t.Code(), content, env).err.Pass?
    requires env.codec.unmarshalReport(frame) == Some(reply)
    requires reply.kind == ClientInstructReply && reply.instruct.uuid == env.uid && reply.instruct.itype == t.Code()
    ensures var issued := Issuance.IssueInstructions(table, lists, orgUuid, groupUuid, instanceName, t.Code(), content, env);
            var u := Reports.UpdateFor(reply, env.codec);
            && u.Some?
            && var settled := Reports.ProcessClientMessage(issued.table, [Reports.Delivery(frame, now, true)], env.codec);
               && |settled| == |table| + 1
               && settled[|table|].uuid == env.uid
               && (settled[|table|].result == 1 <==> reply.instruct.result)
               && (settled[|table|].result == -1 <==> !reply.instruct.result)
               && settled[|table|].reply == u.value.reply
               && settled[|table|].updateTime == now
               && Ledger.InScope(settled[|table|], orgUuid, groupUuid, instanceName)
               && settled[|table|].itype == t.Code() && settled[|table|].content == content
               && forall i :: 0 <= i < |table| && table[i].uuid != env.uid ==> settled[i] == table[i]
  {
    CodeRoundTrip(t);
    var issued := Issuance.IssueInstructions(table, lists, orgUuid, groupUuid, instanceName, t.Code(), content, env);
    Reports.ProcessSingle(issued.table, Reports.Delivery(frame, now, true), env.codec);
  }
}

=== FILE: middleware.dfy ===
/** The two HTTP edge decisions (pkg/middleware): which client address to
    record, and whether a request needs a token. */
module Middleware {

  // ---------------------------------------------------------------------
  // GetClientIp (pkg/middleware/header.go)
  // ---------------------------------------------------------------------

  const Unspecified: string := "0.0.0.0"

  /** `GetClientIp`: the `X-Real-IP` header, else the remote address, else
      `X-Forwarded-For` taken whole, else "0.0.0.0". */
  function GetClientIp(xRealIp: string, remoteIp: string, xForwardedFor: string): (r: string)
    ensures r != ""
    ensures xRealIp != "" ==> r == xRealIp
    ensures xRealIp == "" && remoteIp != "" ==> r == remoteIp
    ensures xRealIp == "" && remoteIp == "" && xForwardedFor != "" ==> r == xForwardedFor
    ensures xRealIp == "" && remoteIp == "" && xForwardedFor == "" ==> r == Unspecified
  {
    if xRealIp != "" then xRealIp
    else if remoteIp != "" then remoteIp
    else if xForwardedFor != "" then xForwardedFor
    else Unspecified
  }

  /** The first non-empty source, if any. */
  function FirstNonEmpty(sources: seq<string>): (r: string)
    ensures r == "" <==> forall k :: 0 <= k < |sources| ==> sources[k] == ""
    ensures r != "" ==> exists k :: 0 <= k < |sources| && sources[k] == r
                                    && forall j :: 0 <= j < k ==> sources[j] == ""
  {
    if |sources| == 0 then ""
    else if sources[0] != "" then sources[0]
    else
      var r := FirstNonEmpty(sources[1..]);
      assert forall k :: 1 <= k < |sources| ==> sources[k] == sources[1..][k - 1];
      r
  }

  /** The fallback answer comes out exactly when every source is empty or
      the first non-empty one literally says "0.0.0.0". */
  lemma ClientIpIsFirstNonEmpty(xRealIp: string, remoteIp: string, xForwardedFor: string)
    ensures var first := FirstNonEmpty([xRealIp, remoteIp, xForwardedFor]);
            GetClientIp(xRealIp, remoteIp, xForwardedFor) == (if first == "" then Unspecified else first)
    ensures GetClientIp(xRealIp, remoteIp, xForwardedFor) == Unspecified <==>
              FirstNonEmpty([xRealIp, remoteIp, xForwardedFor]) in {"", Unspecified}
  {
    var s := [xRealIp, remoteIp, xForwardedFor];
    var s1 := [remoteIp, xForwardedFor];
    var s2 := [xForwardedFor];
    assert s[1..] == s1 && s1[1..] == s2 && s2[1..] == [];
    assert FirstNonEmpty(s2) == xForwardedFor;
    assert FirstNonEmpty(s1) == if remoteIp != "" then remoteIp else xForwardedFor;
    assert FirstNonEmpty(s) == if xRealIp != "" then xRealIp else FirstNonEmpty(s1);
  }

  /** A forwarded-for chain is not split: when it is the only source, the
      whole header, commas included, is the answer. */
  lemma ForwardedForTakenWhole(xForwardedFor: string)
    requires ',' in xForwardedFor
    ensures GetClientIp("", "", xForwardedFor) == xForwardedFor
    ensures ',' in GetClientIp("", "", xForwardedFor)
  {
  }

  // ---------------------------------------------------------------------
  // Authorization (pkg/middleware/auth.go)
  // ---------------------------------------------------------------------

  /** The literal pattern matched against the request URI. It has no regular
      expression metacharacters, so a match is a substring occurrence. */
  const SwaggerPath: string := "/swagger"

  /** Whether `pat` occurs in `s`. */
  function Contains(s: string, pat: string): bool
    decreases |s|
  {
    if |pat| <= |s| && s[..|pat|] == pat then true
    else if |s| == 0 then false
    else Contains(s[1..], pat)
  }

  /** `pat` occurs in `s` at position `i`. */
  predicate OccursAt(s: string, pat: string, i: int)
  {
    0 <= i && i + |pat| <= |s| && s[i..i + |pat|] == pat
  }

  /** `Contains` is the substring relation. */
  lemma {:induction false} ContainsIffOccurs(s: string, pat: string)
    ensures Contains(s, pat) <==> exists i :: OccursAt(s, pat, i)
    decreases |s|
  {
    if |pat| <= |s| && s[..|pat|] == pat {
      assert OccursAt(s, pat, 0);
    } else if |s| == 0 {
    } else {
      ContainsIffOccurs(s[1..], pat);
      OccursInTail(s, pat);
    }
  }

  /** Without an occurrence at the front, `pat` occurs in `s` exactly when it
      occurs in the tail of `s`. */
  lemma OccursInTail(s: string, pat: string)
    requires |s| > 0 && !(|pat| <= |s| && s[..|pat|] == pat)
    ensures (exists i :: OccursAt(s, pat, i)) <==> (exists i :: OccursAt(s[1..], pat, i))
  {
    if exists i :: OccursAt(s, pat, i) {
      var i :| OccursAt(s, pat, i);
      assert i != 0;
      assert s[1..][i - 1..i - 1 + |pat|] == s[i..i + |pat|];
      assert OccursAt(s[1..], pat, i - 1);
    }
    forall i | OccursAt(s[1..], pat, i)
      ensures OccursAt(s, pat, i + 1)
    {
      assert s[1..][i..i + |pat|] == s[i + 1..i + 1 + |pat|];
    }
  }

  /** What the middleware decides. */
  datatype AuthDecision =
    | Bypass              // documentation path: no token needed, none stored
    | Unauthorized        // answered 401 and aborted
    | Proceed(token: string)  // the token is stored in the request context

  /** `Authorization`: documentation paths pass; otherwise the `token`
      header, else the `token` query parameter, must be non-empty. */
  function Authorization(requestUri: string, headerToken: string, queryToken: string): (r: AuthDecision)
    ensures Contains(requestUri, SwaggerPath) <==> r == Bypass
    ensures r.Proceed? ==> r.token != ""
    ensures !Contains(requestUri, SwaggerPath) && headerToken != "" ==> r == Proceed(headerToken)
    ensures !Contains(requestUri, SwaggerPath) && headerToken == "" ==>
              r == (if queryToken != "" then Proceed(queryToken) else Unauthorized)
  {
    if Contains(requestUri, SwaggerPath) then Bypass
    else
      var token := if headerToken != "" then headerToken else queryToken;
      if token == "" then Unauthorized else Proceed(token)
  }

  /** "/swagger" anywhere in the URI, not only as a prefix, lets the
      request through without a token. */
  lemma SwaggerAnywhereBypasses(prefix: string, suffix: string, headerToken: string, queryToken: string)
    ensures Authorization(prefix + SwaggerPath + suffix, headerToken, queryToken) == Bypass
  {
    var s := prefix + SwaggerPath + suffix;
    assert s[|prefix|..|prefix| + |SwaggerPath|] == SwaggerPath;
    assert OccursAt(s, SwaggerPath, |prefix|);
    ContainsIffOccurs(s, SwaggerPath);
  }

  /** A request is refused exactly when it is not a documentation path and
      carries no token in either place. */
  lemma UnauthorizedIff(requestUri: string, headerToken: string, queryToken: string)
    ensures Authorization(requestUri, headerToken, queryToken) == Unauthorized <==>
              (forall i :: !OccursAt(requestUri, SwaggerPath, i))
              && headerToken == "" && queryToken == ""
  {
    ContainsIffOccurs(requestUri, SwaggerPath);
  }
}

=== FILE: ordering.dfy ===
/** `ORDER BY <key> DESC` and `LIMIT n`, the two query clauses the stores use. */
module Ordering {

  /** Non-increasing by `key`: newest first when the key is a creation time. */
  predicate SortedDesc<T>(s: seq<T>, key: T -> int)
  {
    forall i, j :: 0 <= i < j < |s| ==> key(s[i]) >= key(s[j])
  }

  /** Places `x` before the first row that is not newer than it. */
  function Insert<T>(x: T, s: seq<T>, key: T -> int): (r: seq<T>)
    requires SortedDesc(s, key)
    ensures SortedDesc(r, key)
    ensures multiset(r) == multiset(s) + multiset{x}
    ensures |r| == |s| + 1
    // the new head is the newer of `x` and the old head
    ensures r[0] == x || (|s| > 0 && r[0] == s[0])
  {
    if |s| == 0 then [x]
    else if key(x) >= key(s[0]) then [x] + s
    else
      var tail := Insert(x, s[1..], key);
      assert s == [s[0]] + s[1..];
      assert key(s[0]) >= key(tail[0]);
      assert forall k :: 0 <= k < |tail| ==> key(tail[0]) >= key(tail[k]);
      [s[0]] + tail
  }

  /** The rows of `s`, newest first. Rows with equal keys may come in any
      order in the database; this model fixes one such order. */
  function SortDesc<T>(s: seq<T>, key: T -> int): (r: seq<T>)
    ensures SortedDesc(r, key)
    ensures multiset(r) == multiset(s)
    ensures |r| == |s|
  {
    if |s| == 0 then []
    else
      assert s == [s[0]] + s[1..];
      Insert(s[0], SortDesc(s[1..], key), key)
  }

  /** `LIMIT n`: the first `n` rows, or all of them when there are fewer. */
  function Take<T>(s: seq<T>, n: nat): (r: seq<T>)
    ensures |r| == if |s| < n then |s| else n
    ensures forall k :: 0 <= k < |r| ==> r[k] == s[k]
  {
    if |s| <= n then s else s[..n]
  }

  lemma TakeIsSubMultiset<T>(s: seq<T>, n: nat)
    ensures multiset(Take(s, n)) <= multiset(s)
  {
    if n < |s| {
      assert s == s[..n] + s[n..];
    }
  }

  /** In a sorted sequence, whatever `Take` drops is no newer than the last
      row it kept. */
  lemma TakeKeepsNewest<T>(s: seq<T>, key: T -> int, n: nat, x: T)
    requires n > 0
    requires SortedDesc(s, key)
    requires x in s
    requires x !in Take(s, n)
    ensures n < |s|
    ensures key(x) <= key(Take(s, n)[n - 1])
  {
    var j :| 0 <= j < |s| && s[j] == x;
    assert n <= j;
    assert Take(s, n)[n - 1] == s[n - 1];
  }
}

=== FILE: pageinspect.dfy ===
/** The response-classification callback of `InspectSinglePage`
    (internal/biz/chromedp.go): every response the browser reports while
    loading a page is filed either as the home page or as one more resource. */
module PageInspect {
  import opened Common

  /** The fields of a browser `network.Response` that the inspection copies,
      plus one it does not. Timing and security details are opaque here and
      carried as their serialised text. */
  datatype Response = Response(
    url: string,
    remoteIpAddress: string,
    remotePort: int,
    status: int,
    protocol: string,
    timing: Option<string>,
    fromDiskCache: bool,
    securityState: string,
    securityDetails: Option<string>,
    mimeType: string)

  /** The events the page listener can see; only responses are classified. */
  datatype BrowserEvent =
    | RequestWillBeSent(requestUrl: string)
    | ResponseReceived(response: Response)
    | LoadingFinished
    | OtherEvent

  datatype UrlInspectInfo = UrlInspectInfo(
    url: string,
    remoteAddr: string,
    remotePort: int,
    status: int,
    protocol: string,
    timing: Option<string>,
    fromDiskCache: bool,
    securityState: string,
    securityDetails: Option<string>)

  /** The zero value of `UrlInspectInfo`. */
  const NoInspectInfo := UrlInspectInfo("", "", 0, 0, "", None, false, "", None)

  datatype InspectSinglePageResp = InspectSinglePageResp(
    url: string,
    homePageInspect: UrlInspectInfo,
    resourcePageInspect: seq<UrlInspectInfo>)

  function InfoOf(r: Response): (info: UrlInspectInfo)
    ensures info.url == r.url && info.remoteAddr == r.remoteIpAddress
    ensures info.remotePort == r.remotePort && info.status == r.status
    ensures info.protocol == r.protocol && info.timing == r.timing
    ensures info.fromDiskCache == r.fromDiskCache
    ensures info.securityState == r.securityState && info.securityDetails == r.securityDetails
  {
    UrlInspectInfo(r.url, r.remoteIpAddress, r.remotePort, r.status, r.protocol,
                   r.timing, r.fromDiskCache, r.securityState, r.securityDetails)
  }

  // ---------------------------------------------------------------------
  // Trimming: strings.TrimSpace followed by strings.Trim(_, "/")
  // ---------------------------------------------------------------------

  /** `unicode.IsSpace`. */
  predicate IsSpace(c: char)
  {
    c == ' ' || c == '\t' || c == '\n' || c == '\U{0B}' || c == '\U{0C}' || c == '\r'
    || c == '\U{85}' || c == '\U{A0}' || c == '\U{1680}'
    || ('\U{2000}' <= c <= '\U{200A}')
    || c == '\U{2028}' || c == '\U{2029}' || c == '\U{202F}' || c == '\U{205F}' || c == '\U{3000}'
  }

  predicate IsSlash(c: char) { c == '/' }

  /** Drops the leading characters satisfying `cut`. */
  function TrimLeft(s: string, cut: char -> bool): (r: string)
    ensures |r| <= |s| && r == s[|s| - |r|..]
    ensures |r| > 0 ==> !cut(r[0])
    ensures forall k :: 0 <= k < |s| - |r| ==> cut(s[k])
  {
    if |s| > 0 && cut(s[0]) then
      var r := TrimLeft(s[1..], cut);
      assert forall k :: 1 <= k < |s| - |r| ==> s[k] == s[1..][k - 1];
      r
    else s
  }

  /** Drops the trailing characters satisfying `cut`. */
  function TrimRight(s: string, cut: char -> bool): (r: string)
    ensures |r| <= |s| && r == s[..|r|]
    ensures |r| > 0 ==> !cut(r[|r| - 1])
    ensures forall k :: |r| <= k < |s| ==> cut(s[k])
  {
    if |s| > 0 && cut(s[|s| - 1]) then
      var r := TrimRight(s[..|s| - 1], cut);
      assert forall k :: |r| <= k < |s| - 1 ==> s[k] == s[..|s| - 1][k];
      r
    else s
  }

  /** `r` is `s` with a run of `cut` characters dropped before offset `i`
      and another after `i + |r|`, and nothing changed in between. */
  predicate TrimmedAt(s: string, r: string, cut: char -> bool, i: int)
  {
    && 0 <= i && i + |r| <= |s| && r == s[i..i + |r|]
    && (forall k :: 0 <= k < i ==> cut(s[k]))
    && (forall k :: i + |r| <= k < |s| ==> cut(s[k]))
  }

  /** `strings.Trim` with a predicate: the longest run of `cut` characters is
      dropped from both ends, so the ends of the result are not `cut`. */
  function Trim(s: string, cut: char -> bool): (r: string)
    ensures |r| > 0 ==> !cut(r[0]) && !cut(r[|r| - 1])
  {
    TrimRight(TrimLeft(s, cut), cut)
  }

  /** `Trim` removes only `cut` characters, only from the two ends, and
      leaves the middle as it was. */
  lemma {:induction false} TrimIsTrimmedAt(s: string, cut: char -> bool)
    ensures exists i :: TrimmedAt(s, Trim(s, cut), cut, i)
  {
    var left := TrimLeft(s, cut);
    var r := TrimRight(left, cut);
    assert Trim(s, cut) == r;
    TrimBothEnds(s, left, r, cut);
  }

  /** What `TrimLeft` and then `TrimRight` leave: a trim of the original. */
  lemma TrimBothEnds(s: string, left: string, r: string, cut: char -> bool)
    requires |left| <= |s| && left == s[|s| - |left|..]
    requires forall k :: 0 <= k < |s| - |left| ==> cut(s[k])
    requires |r| <= |left| && r == left[..|r|]
    requires forall k :: |r| <= k < |left| ==> cut(left[k])
    ensures TrimmedAt(s, r, cut, |s| - |left|)
  {
    var i := |s| - |left|;
    assert r == s[i..i + |r|];
    forall k | i + |r| <= k < |s|
      ensures cut(s[k])
    {
      assert s[k] == left[k - i];
    }
  }

  predicate SpaceOrSlash(c: char) { IsSpace(c) || IsSlash(c) }

  /** The normalised form of a response URL that is compared with the
      requested one: Unicode white space is trimmed from both ends, then
      slashes. The requested URL itself is not normalised. */
  function NormaliseUrl(u: string): (r: string)
    ensures |r| > 0 ==> r[0] != '/' && r[|r| - 1] != '/'
  {
    Trim(Trim(u, IsSpace), IsSlash)
  }

  /** The normalised URL is the white-space trim of the URL with its
      slashes trimmed, and so a contiguous part of the URL around which only
      white space and slashes were dropped. */
  lemma {:induction false} NormaliseUrlTrims(u: string)
    ensures exists i :: TrimmedAt(Trim(u, IsSpace), NormaliseUrl(u), IsSlash, i)
    ensures exists i :: TrimmedAt(u, NormaliseUrl(u), SpaceOrSlash, i)
  {
    assert NormaliseUrl(u) == Trim(Trim(u, IsSpace), IsSlash);
    TrimTwice(u, IsSpace, IsSlash, SpaceOrSlash);
  }

  /** Two trims in a row drop only characters of either kind around one
      contiguous part of the original. */
  lemma {:induction false} TrimTwice(u: string, cut1: char -> bool, cut2: char -> bool, both: char -> bool)
    requires forall c :: cut1(c) ==> both(c)
    requires forall c :: cut2(c) ==> both(c)
    ensures exists i :: TrimmedAt(Trim(u, cut1), Trim(Trim(u, cut1), cut2), cut2, i)
    ensures exists i :: TrimmedAt(u, Trim(Trim(u, cut1), cut2), both, i)
  {
    var m := Trim(u, cut1);
    var r := Trim(m, cut2);
    TrimIsTrimmedAt(u, cut1);
    TrimIsTrimmedAt(m, cut2);
    var i1 :| TrimmedAt(u, m, cut1, i1);
    var i2 :| TrimmedAt(m, r, cut2, i2);
    TrimmedCompose(u, m, r, i1, i2, cut1, cut2, both);
  }

  /** The composition step of `TrimTwice`, with the trims given by their
      offsets. */
  lemma TrimmedCompose(u: string, m: string, r: string, i1: int, i2: int,
                       cut1: char -> bool, cut2: char -> bool, both: char -> bool)
    requires forall c :: cut1(c) ==> both(c)
    requires forall c :: cut2(c) ==> both(c)
    requires TrimmedAt(u, m, cut1, i1)
    requires TrimmedAt(m, r, cut2, i2)
    ensures TrimmedAt(u, r, both, i1 + i2)
  {
    var i := i1 + i2;
    forall j | 0 <= j < |r|
      ensures r[j] == u[i + j]
    {
      assert r[j] == m[i2 + j];
    }
    assert r == u[i..i + |r|];
    forall k | 0 <= k < i
      ensures both(u[k])
    {
      if k >= i1 {
        assert u[k] == m[k - i1];
      }
    }
    forall k | i + |r| <= k < |u|
      ensures both(u[k])
    {
      if k < i1 + |m| {
        assert u[k] == m[k - i1];
      }
    }
  }

  predicate IsHomePage(requested: string, r: Response)
  {
    NormaliseUrl(r.url) == requested
  }

  /** Because only the response side is trimmed, a requested URL that
      begins or ends with "/" can never be recognised as the home page. */
  lemma SlashedRequestNeverMatches(requested: string, r: Response)
    requires |requested| > 0
    requires requested[0] == '/' || requested[|requested| - 1] == '/'
    ensures !IsHomePage(requested, r)
  {
  }

  lemma TrimLeftKeeps(s: string, cut: char -> bool)
    requires |s| == 0 || !cut(s[0])
    ensures TrimLeft(s, cut) == s
  {
  }

  lemma TrimRightKeeps(s: string, cut: char -> bool)
    requires |s| == 0 || !cut(s[|s| - 1])
    ensures TrimRight(s, cut) == s
  {
  }

  lemma TrimRightDropsLast(s: string, c: char, cut: char -> bool)
    requires cut(c)
    ensures TrimRight(s + [c], cut) == TrimRight(s, cut)
  {
    assert (s + [c])[..|s|] == s;
  }

  /** Trimming is not the identity: a response whose URL is the requested
      one plus a trailing "/" is recognised as the home page, as long as the
      requested URL has no surrounding slash and no leading space. */
  lemma TrailingSlashResponseMatches(requested: string, r: Response)
    requires |requested| > 0 && !IsSpace(requested[0])
    requires requested[0] != '/' && requested[|requested| - 1] != '/'
    requires r.url == requested + "/"
    ensures IsHomePage(requested, r)
  {
    var u := r.url;
    assert u[0] == requested[0] && u[|u| - 1] == '/';
    TrimLeftKeeps(u, IsSpace);
    TrimRightKeeps(u, IsSpace);
    assert Trim(u, IsSpace) == u;
    TrimLeftKeeps(u, IsSlash);
    TrimRightDropsLast(requested, '/', IsSlash);
    TrimRightKeeps(requested, IsSlash);
    assert Trim(u, IsSlash) == requested;
  }

  // ---------------------------------------------------------------------
  // The listener callback as a left fold over the event sequence
  // ---------------------------------------------------------------------

  /** One invocation of the listener callback. */
  function Classify(requested: string, acc: InspectSinglePageResp, e: BrowserEvent): (r: InspectSinglePageResp)
    ensures r.url == acc.url
    // the resource list only grows, by one entry for a response that is not the home page
    ensures |r.resourcePageInspect| == |acc.resourcePageInspect|
              + (if e.ResponseReceived? && !IsHomePage(requested, e.response) then 1 else 0)
    ensures r.resourcePageInspect[..|acc.resourcePageInspect|] == acc.resourcePageInspect
    ensures |r.resourcePageInspect| > |acc.resourcePageInspect| ==>
              r.resourcePageInspect[|acc.resourcePageInspect|] == InfoOf(e.response)
    // the home page is overwritten by, and only by, a response recognised as the home page
    ensures e.ResponseReceived? && IsHomePage(requested, e.response) ==> r.homePageInspect == InfoOf(e.response)
    ensures !(e.ResponseReceived? && IsHomePage(requested, e.response)) ==> r.homePageInspect == acc.homePageInspect
  {
    match e
    case ResponseReceived(r) =>
      if IsHomePage(requested, r) then acc.(homePageInspect := InfoOf(r))
      else acc.(resourcePageInspect := acc.resourcePageInspect + [InfoOf(r)])
    case _ => acc
  }

  /** The result collected after the events `events`, in arrival order. */
  function Collect(requested: string, events: seq<BrowserEvent>): (r: InspectSinglePageResp)
    ensures r.url == requested
    ensures |r.resourcePageInspect| <= |events|
    // the home page is the zero value or the information of one of the home-page responses
    ensures r.homePageInspect == NoInspectInfo
            || exists k :: 0 <= k < |events| && events[k].ResponseReceived? && IsHomePage(requested, events[k].response)
                           && r.homePageInspect == InfoOf(events[k].response)
  {
    if |events| == 0 then InspectSinglePageResp(requested, NoInspectInfo, [])
    else Classify(requested, Collect(requested, events[..|events| - 1]), events[|events| - 1])
  }

  /** `InspectSinglePage`: the collected result is returned together with the
      navigation error, whatever that error is. `run` stands for the browser:
      the responses it observed for the URL and the error of `chromedp.Run`. */
  function InspectSinglePage(url: string, run: (seq<BrowserEvent>, Outcome)): (r: (InspectSinglePageResp, Outcome))
    ensures r.0.url == url
    ensures r.1 == run.1
    ensures r.0.resourcePageInspect == Resources(url, run.0)
    ensures r.0.homePageInspect == HomeOf(url, run.0)
  {
    CollectMatchesSpec(url, run.0);
    (Collect(url, run.0), run.1)
  }

  // ---------------------------------------------------------------------
  // Independent description of the result, defined from the front
  // ---------------------------------------------------------------------

  /** The resource entries: one per non-home-page response, in arrival order. */
  function Resources(requested: string, events: seq<BrowserEvent>): seq<UrlInspectInfo>
  {
    FlatMap(events, (e: BrowserEvent) => ResourceOf(requested, e))
  }

  /** The resource entry one event contributes: none, or exactly one. */
  function ResourceOf(requested: string, e: BrowserEvent): seq<UrlInspectInfo>
  {
    if e.ResponseReceived? && !IsHomePage(requested, e.response) then [InfoOf(e.response)] else []
  }

  /** The last response recognised as the home page, if any. */
  function LastHome(requested: string, events: seq<BrowserEvent>): Option<Response>
  {
    if |events| == 0 then None
    else
      match LastHome(requested, events[1..])
      case Some(r) => Some(r)
      case None =>
        match events[0]
        case ResponseReceived(r) => if IsHomePage(requested, r) then Some(r) else None
        case _ => None
  }

  function HomeOf(requested: string, events: seq<BrowserEvent>): UrlInspectInfo
  {
    match LastHome(requested, events)
    case Some(r) => InfoOf(r)
    case None => NoInspectInfo
  }

  function ResponseCount(events: seq<BrowserEvent>): nat
  {
    if |events| == 0 then 0
    else (if events[0].ResponseReceived? then 1 else 0) + ResponseCount(events[1..])
  }

  function HomeCount(requested: string, events: seq<BrowserEvent>): nat
  {
    if |events| == 0 then 0
    else (if events[0].ResponseReceived? && IsHomePage(requested, events[0].response) then 1 else 0)
         + HomeCount(requested, events[1..])
  }

  lemma ResourcesAppend(requested: string, events: seq<BrowserEvent>, e: BrowserEvent)
    ensures Resources(requested, events + [e]) == Resources(requested, events) + ResourceOf(requested, e)
  {
    var f := (x: BrowserEvent) => ResourceOf(requested, x);
    FlatMapAppend(events, [e], f);
    FlatMapSingle(e, f);
  }

  lemma {:induction false} LastHomeAppend(requested: string, events: seq<BrowserEvent>, e: BrowserEvent)
    ensures LastHome(requested, events + [e])
         == (if e.ResponseReceived? && IsHomePage(requested, e.response) then Some(e.response)
             else LastHome(requested, events))
    decreases |events|
  {
    if |events| > 0 {
      assert (events + [e])[1..] == events[1..] + [e];
      LastHomeAppend(requested, events[1..], e);
    } else {
      assert events + [e] == [e];
    }
  }

  /** The fold agrees with the front-defined description, for every event sequence. */
  lemma {:induction false} CollectMatchesSpec(requested: string, events: seq<BrowserEvent>)
    ensures Collect(requested, events).url == requested
    ensures Collect(requested, events).resourcePageInspect == Resources(requested, events)
    ensures Collect(requested, events).homePageInspect == HomeOf(requested, events)
    decreases |events|
  {
    if |events| > 0 {
      var front := events[..|events| - 1];
      var e := events[|events| - 1];
      assert events == front + [e];
      var acc := Collect(requested, front);
      assert Collect(requested, events) == Classify(requested, acc, e);
      CollectMatchesSpec(requested, front);
      ResourcesAppend(requested, front, e);
      LastHomeAppend(requested, front, e);
    }
  }

  lemma {:induction false} CountsSplit(requested: string, events: seq<BrowserEvent>)
    ensures |Resources(requested, events)| + HomeCount(requested, events) == ResponseCount(events)
    decreases |events|
  {
    if |events| > 0 {
      CountsSplit(requested, events[1..]);
    }
  }

  /** Every response event lands in exactly one bucket: it is either the
      (current) home page or one more resource entry. */
  lemma EveryResponseFiledOnce(url: string, run: (seq<BrowserEvent>, Outcome))
    ensures |InspectSinglePage(url, run).0.resourcePageInspect| + HomeCount(url, run.0) == ResponseCount(run.0)
    ensures HomeCount(url, run.0) == 0 ==> InspectSinglePage(url, run).0.homePageInspect == NoInspectInfo
  {
    CountsSplit(url, run.0);
    if HomeCount(url, run.0) == 0 {
      NoHomeCountNoHome(url, run.0);
    }
  }

  lemma {:induction false} NoHomeCountNoHome(requested: string, events: seq<BrowserEvent>)
    requires HomeCount(requested, events) == 0
    ensures LastHome(requested, events) == None
    decreases |events|
  {
    if |events| > 0 {
      NoHomeCountNoHome(requested, events[1..]);
    }
  }
}

=== FILE: protocol.dfy ===
/** The wire vocabulary shared by commander and agent
    (internal/biz/instruct.go and internal/biz/message.go): instruction
    types, the instruction payload, the two envelopes, and the JSON codec,
    which is left opaque. */
module Protocol {
  import opened Common
  import opened PageInspect

  /** A serialised envelope, as it travels through the instruction list
      and over the session. */
  type Frame = string

  /** The five instruction types; on the wire each is its integer code. */
  datatype InstructType = Command | ChromeDpInspect | Dns | Http | Icmp
  {
    function Code(): int
    {
      match this
      case Command => 1
      case ChromeDpInspect => 2
      case Dns => 3
      case Http => 4
      case Icmp => 5
    }
  }

  /** Reads a wire code; anything outside 1..5 is an unknown type. */
  function TypeOfCode(code: int): (t: Option<InstructType>)
    ensures t.Some? <==> 1 <= code <= 5
    ensures t.Some? ==> t.value.Code() == code
  {
    if code == 1 then Some(Command)
    else if code == 2 then Some(ChromeDpInspect)
    else if code == 3 then Some(Dns)
    else if code == 4 then Some(Http)
    else if code == 5 then Some(Icmp)
    else None
  }

  /** Codes and types are in one-to-one correspondence. */
  lemma CodeRoundTrip(t: InstructType)
    ensures TypeOfCode(t.Code()) == Some(t)
  {
  }

  // Envelope kinds (internal/biz/message.go:13-19).
  const ClientHelloEcho: int := 1
  const ClientInstructReply: int := 2
  const ClientChromeDpScreenShot: int := 3
  const ServiceHelloEcho: int := 1
  const ServiceInstruct: int := 2

  /** The reply of the HTTP probe; serialised by an opaque `String()`. */
  datatype HttpInspectReply = HttpInspectReply(url: string, statusCode: int, response: seq<bv8>)

  /** The ICMP statistics; the floating-point fields are not modelled. */
  datatype IcmpStatistics = IcmpStatistics(addr: string, packetsSent: int, packetsRecv: int)

  /** `InstructMessage`: the type-tagged payload carried in both directions.
      A directive fills one request field; a reply echoes it and fills the
      matching reply field, `result` and `errMsg`. */
  datatype InstructMessage = InstructMessage(
    uuid: string,
    itype: int,
    commandContent: string,
    commandReply: string,
    chromeDpInspectUrl: string,
    chromeDpInspectReply: InspectSinglePageResp,
    dnsInspectDomain: string,
    dnsInspectReply: seq<string>,
    httpInspectUrl: string,
    httpInspectReply: HttpInspectReply,
    icmpInspectAddr: string,
    icmpInspectReply: Option<IcmpStatistics>,
    mtrInspectAddr: string,
    mtrInspectReply: string,
    result: bool,
    errMsg: string)

  /** The zero value of `InstructMessage`. */
  const EmptyInstruct := InstructMessage(
    "", 0, "", "", "", InspectSinglePageResp("", NoInspectInfo, []), "", [], "",
    HttpInspectReply("", 0, []), "", None, "", "", false, "")

  /** The request field that carries the content of an instruction of type `t`. */
  function RequestField(m: InstructMessage, t: InstructType): string
  {
    match t
    case Command => m.commandContent
    case ChromeDpInspect => m.chromeDpInspectUrl
    case Dns => m.dnsInspectDomain
    case Http => m.httpInspectUrl
    case Icmp => m.icmpInspectAddr
  }

  /** No reply field, no mtr field and no outcome is set. */
  predicate CarriesNoReply(m: InstructMessage)
  {
    && m.commandReply == ""
    && m.chromeDpInspectReply == EmptyInstruct.chromeDpInspectReply
    && m.dnsInspectReply == []
    && m.httpInspectReply == EmptyInstruct.httpInspectReply
    && m.icmpInspectReply == None
    && m.mtrInspectAddr == "" && m.mtrInspectReply == ""
    && !m.result && m.errMsg == ""
  }

  /** Commander to agent. */
  datatype ServiceMessage = ServiceMessage(kind: int, message: string, instruct: InstructMessage)

  /** Agent to commander. */
  datatype ClientMessage = ClientMessage(kind: int, message: string, instruct: InstructMessage, screenShot: seq<bv8>)

  /** `encoding/json` and the `String()` methods, as opaque functions. */
  datatype Codec = Codec(
    marshalDirective: ServiceMessage -> Result<Frame>,
    unmarshalDirective: Frame -> Option<ServiceMessage>,
    unmarshalReport: Frame -> Option<ClientMessage>,
    inspectString: InspectSinglePageResp -> string,
    httpString: HttpInspectReply -> string,
    marshalIcmp: Option<IcmpStatistics> -> Result<string>)

  /** The agent decodes every directive the commander managed to encode. */
  ghost predicate DirectiveRoundTrips(codec: Codec)
  {
    forall m: ServiceMessage, f: Frame ::
      codec.marshalDirective(m) == Ok(f) ==> codec.unmarshalDirective(f) == Some(m)
  }
}

=== FILE: registry.dfy ===
/** The instance table (internal/data/instance.go): the register upsert,
    the two listings, the lookup by target and the timestamp refresh. */
module Registry {
  import opened Common
  import Ordering

  /** One row of the `instance` table. */
  datatype Instance = Instance(
    uuid: string,
    orgUuid: string,
    groupUuid: string,
    instanceName: string,
    clientIp: string,
    createTime: int,
    updateTime: int)

  /** The table, in insertion order. */
  type Table = seq<Instance>

  /** Seconds within which an instance's last refresh makes it alive. */
  const AliveWindow: int := 20

  predicate SameTriple(row: Instance, orgUuid: string, groupUuid: string, instanceName: string)
  {
    row.orgUuid == orgUuid && row.groupUuid == groupUuid && row.instanceName == instanceName
  }

  /** At most one row per (org, group, instance name). */
  predicate UniqueTriples(t: Table)
  {
    forall i, j :: 0 <= i < j < |t| ==> !SameTriple(t[j], t[i].orgUuid, t[i].groupUuid, t[i].instanceName)
  }

  /** The position of a row of the triple, the one GORM `First` returns.
      `First` orders by the primary key; the model takes the earliest row
      instead. The two agree whenever the triple has a single row, which
      `Register` keeps so (`RegisterKeepsTriplesUnique`). */
  function FindTriple(t: Table, orgUuid: string, groupUuid: string, instanceName: string): (r: Option<nat>)
    ensures r.Some? ==> r.value < |t| && SameTriple(t[r.value], orgUuid, groupUuid, instanceName)
    ensures r.Some? ==> forall k :: 0 <= k < r.value ==> !SameTriple(t[k], orgUuid, groupUuid, instanceName)
    ensures r.None? <==> forall k :: 0 <= k < |t| ==> !SameTriple(t[k], orgUuid, groupUuid, instanceName)
  {
    if |t| == 0 then None
    else if SameTriple(t[0], orgUuid, groupUuid, instanceName) then Some(0)
    else
      match FindTriple(t[1..], orgUuid, groupUuid, instanceName)
      case None => None
      case Some(i) => Some(i + 1)
  }

  /** Whether the lookup and the write of one `Register` call fail. */
  datatype RegisterFaults = RegisterFaults(lookupFails: bool, writeFails: bool)

  /** The uuid and error `Register` returns, and the table afterwards. */
  datatype RegisterOutcome = RegisterOutcome(uuid: string, err: Outcome, table: Table)

  /** The rows of the triple get the new client address and creation time;
      their uuid and update time stay. */
  function RefreshRows(t: Table, entry: Instance): (r: Table)
    ensures |r| == |t|
    ensures forall k :: 0 <= k < |t| ==>
              r[k] == (if SameTriple(t[k], entry.orgUuid, entry.groupUuid, entry.instanceName)
                       then t[k].(clientIp := entry.clientIp, createTime := entry.createTime)
                       else t[k])
  {
    if |t| == 0 then []
    else
      [if SameTriple(t[0], entry.orgUuid, entry.groupUuid, entry.instanceName)
       then t[0].(clientIp := entry.clientIp, createTime := entry.createTime)
       else t[0]]
      + RefreshRows(t[1..], entry)
  }

  /** `Register`: an upsert keyed by the triple of `entry`. */
  function Register(t: Table, entry: Instance, faults: RegisterFaults): (r: RegisterOutcome)
    // a lookup error other than not-found writes nothing
    ensures faults.lookupFails ==> r.err.Fail? && r.table == t
    // a failed call never changes the table
    ensures r.err.Fail? ==> r.table == t
    ensures r.err.Pass? <==> !faults.lookupFails && !faults.writeFails
    // unseen triple: the caller's uuid is returned and exactly that row is added
    ensures !faults.lookupFails && FindTriple(t, entry.orgUuid, entry.groupUuid, entry.instanceName).None? ==>
              r.uuid == entry.uuid && (r.err.Pass? ==> r.table == t + [entry])
    // known triple: the stored uuid is returned; only client_ip and create_time change
    ensures !faults.lookupFails && FindTriple(t, entry.orgUuid, entry.groupUuid, entry.instanceName).Some? ==>
              && r.uuid == t[FindTriple(t, entry.orgUuid, entry.groupUuid, entry.instanceName).value].uuid
              && |r.table| == |t|
              && (r.err.Pass? ==> r.table == RefreshRows(t, entry))
  {
    if faults.lookupFails then RegisterOutcome("", Fail("lookup failed"), t)
    else
      match FindTriple(t, entry.orgUuid, entry.groupUuid, entry.instanceName)
      case None =>
        if faults.writeFails then RegisterOutcome(entry.uuid, Fail("insert failed"), t)
        else RegisterOutcome(entry.uuid, Pass, t + [entry])
      case Some(i) =>
        if faults.writeFails then RegisterOutcome(t[i].uuid, Fail("update failed"), t)
        else RegisterOutcome(t[i].uuid, Pass, RefreshRows(t, entry))
  }

  /** Re-registering a known triple keeps its uuid and its update time. */
  lemma ReRegisterKeepsIdentity(t: Table, entry: Instance, faults: RegisterFaults, k: nat)
    requires !faults.lookupFails && !faults.writeFails
    requires k < |t| && SameTriple(t[k], entry.orgUuid, entry.groupUuid, entry.instanceName)
    ensures var r := Register(t, entry, faults);
            && |r.table| == |t|
            && r.table[k].uuid == t[k].uuid
            && r.table[k].updateTime == t[k].updateTime
            && r.table[k].clientIp == entry.clientIp
            && r.table[k].createTime == entry.createTime
  {
  }

  /** If every row was inserted by `Register`, there is at most one row per
      triple: the upsert preserves uniqueness. */
  lemma RegisterKeepsTriplesUnique(t: Table, entry: Instance, faults: RegisterFaults)
    requires UniqueTriples(t)
    ensures UniqueTriples(Register(t, entry, faults).table)
  {
    if !faults.lookupFails && !faults.writeFails {
      var r := Register(t, entry, faults);
      if FindTriple(t, entry.orgUuid, entry.groupUuid, entry.instanceName).Some? {
        forall i, j | 0 <= i < j < |r.table|
          ensures !SameTriple(r.table[j], r.table[i].orgUuid, r.table[i].groupUuid, r.table[i].instanceName)
        {
          assert r.table[i].orgUuid == t[i].orgUuid && r.table[i].groupUuid == t[i].groupUuid
              && r.table[i].instanceName == t[i].instanceName;
          assert r.table[j].orgUuid == t[j].orgUuid && r.table[j].groupUuid == t[j].groupUuid
              && r.table[j].instanceName == t[j].instanceName;
        }
      }
    }
  }

  // ---------------------------------------------------------------------
  // Queries
  // ---------------------------------------------------------------------

  function CreateTime(row: Instance): int { row.createTime }

  /** The row filter of `List`: the org always, the group only when given. */
  predicate InListScope(row: Instance, orgUuid: string, groupUuid: string)
  {
    row.orgUuid == orgUuid && (groupUuid != "" ==> row.groupUuid == groupUuid)
  }

  function ListScoped(t: Table, orgUuid: string, groupUuid: string): (r: Table)
    ensures forall row :: row in r ==> row in t && InListScope(row, orgUuid, groupUuid)
    ensures forall row :: row in t && InListScope(row, orgUuid, groupUuid) ==> row in r
    ensures multiset(r) <= multiset(t)
    ensures forall row :: multiset(r)[row] == if InListScope(row, orgUuid, groupUuid) then multiset(t)[row] else 0
  {
    if |t| == 0 then []
    else
      assert t == [t[0]] + t[1..];
      (if InListScope(t[0], orgUuid, groupUuid) then [t[0]] else []) + ListScoped(t[1..], orgUuid, groupUuid)
  }

  /** `List`: the rows of the org (and of the group when one is given),
      newest `create_time` first. */
  function List(t: Table, orgUuid: string, groupUuid: string): (r: Table)
    ensures forall row :: row in r ==> row in t && InListScope(row, orgUuid, groupUuid)
    ensures forall row :: row in t && InListScope(row, orgUuid, groupUuid) ==> row in r
    ensures Ordering.SortedDesc(r, CreateTime)
    ensures multiset(r) <= multiset(t)
    ensures forall row :: multiset(r)[row] == if InListScope(row, orgUuid, groupUuid) then multiset(t)[row] else 0
  {
    var kept := ListScoped(t, orgUuid, groupUuid);
    var r := Ordering.SortDesc(kept, CreateTime);
    SameMembers(kept, r);
    r
  }

  /** The alive filter of `ListAliveInstance`: refreshed no earlier than
      `now - 20`. */
  predicate RecentlyUpdated(row: Instance, now: int)
  {
    row.updateTime >= now - AliveWindow
  }

  /** The row filter of `ListAliveInstance`: recently refreshed, and an
      empty org or group means no filter on that field. */
  predicate InAliveScope(row: Instance, orgUuid: string, groupUuid: string, now: int)
  {
    RecentlyUpdated(row, now)
    && (orgUuid != "" ==> row.orgUuid == orgUuid)
    && (groupUuid != "" ==> row.groupUuid == groupUuid)
  }

  function AliveScoped(t: Table, orgUuid: string, groupUuid: string, now: int): (r: Table)
    ensures forall row :: row in r ==> row in t && InAliveScope(row, orgUuid, groupUuid, now)
    ensures forall row :: row in t && InAliveScope(row, orgUuid, groupUuid, now) ==> row in r
    ensures multiset(r) <= multiset(t)
    ensures forall row :: multiset(r)[row] == if InAliveScope(row, orgUuid, groupUuid, now) then multiset(t)[row] else 0
  {
    if |t| == 0 then []
    else
      assert t == [t[0]] + t[1..];
      (if InAliveScope(t[0], orgUuid, groupUuid, now) then [t[0]] else []) + AliveScoped(t[1..], orgUuid, groupUuid, now)
  }

  /** `ListAliveInstance`: the recently refreshed rows of the scope, newest
      `create_time` first. */
  function ListAliveInstance(t: Table, orgUuid: string, groupUuid: string, now: int): (r: Table)
    ensures forall row :: row in r ==> row in t && InAliveScope(row, orgUuid, groupUuid, now)
    ensures forall row :: row in t && InAliveScope(row, orgUuid, groupUuid, now) ==> row in r
    ensures Ordering.SortedDesc(r, CreateTime)
    ensures multiset(r) <= multiset(t)
    ensures forall row :: multiset(r)[row] == if InAliveScope(row, orgUuid, groupUuid, now) then multiset(t)[row] else 0
  {
    var kept := AliveScoped(t, orgUuid, groupUuid, now);
    var r := Ordering.SortDesc(kept, CreateTime);
    SameMembers(kept, r);
    r
  }

  lemma SameMembers(a: Table, b: Table)
    requires multiset(a) == multiset(b)
    ensures forall row :: row in a <==> row in b
  {
    forall row ensures row in a <==> row in b {
      assert row in a <==> row in multiset(a);
      assert row in b <==> row in multiset(b);
    }
  }

  /** `Get`: the first row of the triple; none is the not-found error. */
  function Get(t: Table, orgUuid: string, groupUuid: string, instanceName: string, lookupFails: bool)
    : (r: Result<Instance>)
    ensures r.Ok? ==> r.value in t && SameTriple(r.value, orgUuid, groupUuid, instanceName)
    ensures r.Ok? <==> !lookupFails && exists k :: 0 <= k < |t| && SameTriple(t[k], orgUuid, groupUuid, instanceName)
  {
    if lookupFails then Err("lookup failed")
    else
      match FindTriple(t, orgUuid, groupUuid, instanceName)
      case None => Err("record not found")
      case Some(i) => Ok(t[i])
  }

  /** `UpdateTime`: the rows with the uuid get `update_time = now`; nothing
      else changes. */
  function UpdateTime(t: Table, uuid: string, now: int, writeOk: bool): (r: (Outcome, Table))
    ensures r.0.Pass? <==> writeOk
    ensures |r.1| == |t|
    ensures !writeOk ==> r.1 == t
    ensures writeOk ==> forall k :: 0 <= k < |t| ==>
              r.1[k] == (if t[k].uuid == uuid then t[k].(updateTime := now) else t[k])
  {
    if !writeOk then (Fail("update failed"), t) else (Pass, Touch(t, uuid, now))
  }

  function Touch(t: Table, uuid: string, now: int): (r: Table)
    ensures |r| == |t|
    ensures forall k :: 0 <= k < |t| ==> r[k] == (if t[k].uuid == uuid then t[k].(updateTime := now) else t[k])
  {
    if |t| == 0 then []
    else [if t[0].uuid == uuid then t[0].(updateTime := now) else t[0]] + Touch(t[1..], uuid, now)
  }
}

=== FILE: reports.dfy ===
/** The commander's side of the session (internal/biz/message.go): the read
    loop that filters frames, and the report handler that turns instruction
    replies into ledger updates keyed by the instruction uuid. */
module Reports {
  import opened Common
  import opened Protocol
  import Ledger

  /** An update of the ledger row with `uuid`. */
  datatype LedgerUpdate = LedgerUpdate(uuid: string, reply: string, result: int)

  /** The stored reply of a successful instruction of type `t`: the command
      output, the serialised page inspection, the DNS addresses joined with
      ",", the serialised HTTP reply, or the ICMP statistics as JSON (the
      marshal error text if that fails). */
  function SuccessReply(m: InstructMessage, t: InstructType, codec: Codec): (r: string)
    ensures t == Command ==> r == m.commandReply
    // page inspections and HTTP replies are stored through their `String()` methods
    ensures t == ChromeDpInspect ==> r == codec.inspectString(m.chromeDpInspectReply)
    ensures t == Http ==> r == codec.httpString(m.httpInspectReply)
    // DNS addresses are joined with ","
    ensures t == Dns ==> r == Join(m.dnsInspectReply, ",")
    // the joined DNS addresses split back into the list when no address holds a comma
    ensures t == Dns && |m.dnsInspectReply| >= 1
            && (forall k :: 0 <= k < |m.dnsInspectReply| ==> ',' !in m.dnsInspectReply[k]) ==>
              Split(r, ',') == m.dnsInspectReply
    // ICMP statistics are stored as their JSON, or as the marshal error text when that fails
    ensures t == Icmp && codec.marshalIcmp(m.icmpInspectReply).Ok? ==> r == codec.marshalIcmp(m.icmpInspectReply).value
    ensures t == Icmp && codec.marshalIcmp(m.icmpInspectReply).Err? ==> r == codec.marshalIcmp(m.icmpInspectReply).text
  {
    match t
    case Command => m.commandReply
    case ChromeDpInspect => codec.inspectString(m.chromeDpInspectReply)
    case Dns =>
      if |m.dnsInspectReply| >= 1 && forall k :: 0 <= k < |m.dnsInspectReply| ==> ',' !in m.dnsInspectReply[k] then
        SplitJoin(m.dnsInspectReply, ',');
        Join(m.dnsInspectReply, ",")
      else Join(m.dnsInspectReply, ",")
    case Http => codec.httpString(m.httpInspectReply)
    case Icmp =>
      match codec.marshalIcmp(m.icmpInspectReply)
      case Ok(json) => json
      case Err(e) => e
  }

  /** The ledger update a report asks for, if any. Only instruction replies
      of a known type produce one; its key is the reply's uuid and nothing
      else; its result is 1 exactly when the agent reported success. */
  function UpdateFor(cm: ClientMessage, codec: Codec): (r: Option<LedgerUpdate>)
    ensures r.Some? <==> cm.kind == ClientInstructReply && TypeOfCode(cm.instruct.itype).Some?
    ensures r.Some? ==> r.value.uuid == cm.instruct.uuid
    ensures r.Some? ==> (r.value.result == 1 <==> cm.instruct.result)
    ensures r.Some? ==> (r.value.result == -1 <==> !cm.instruct.result)
    ensures r.Some? && !cm.instruct.result ==> r.value.reply == cm.instruct.errMsg
    ensures r.Some? && cm.instruct.result ==>
              r.value.reply == SuccessReply(cm.instruct, TypeOfCode(cm.instruct.itype).value, codec)
  {
    if cm.kind != ClientInstructReply then None
    else
      match TypeOfCode(cm.instruct.itype)
      case None => None
      case Some(t) =>
        if cm.instruct.result then Some(LedgerUpdate(cm.instruct.uuid, SuccessReply(cm.instruct, t, codec), 1))
        else Some(LedgerUpdate(cm.instruct.uuid, cm.instruct.errMsg, -1))
  }

  /** A successful DNS reply is stored so that the address list can be read
      back by splitting on ",", as long as no address contains a comma. */
  lemma DnsReplyRecoverable(cm: ClientMessage, codec: Codec)
    requires cm.kind == ClientInstructReply && cm.instruct.itype == Dns.Code() && cm.instruct.result
    requires |cm.instruct.dnsInspectReply| >= 1
    requires forall k :: 0 <= k < |cm.instruct.dnsInspectReply| ==> ',' !in cm.instruct.dnsInspectReply[k]
    ensures UpdateFor(cm, codec).Some?
    ensures Split(UpdateFor(cm, codec).value.reply, ',') == cm.instruct.dnsInspectReply
  {
    SplitJoin(cm.instruct.dnsInspectReply, ',');
  }

  /** An ICMP success whose statistics cannot be serialised is still
      recorded as a success, with the marshal error as its reply. */
  lemma IcmpMarshalFailureStillSucceeds(cm: ClientMessage, codec: Codec)
    requires cm.kind == ClientInstructReply && cm.instruct.itype == Icmp.Code() && cm.instruct.result
    requires codec.marshalIcmp(cm.instruct.icmpInspectReply).Err?
    ensures UpdateFor(cm, codec) == Some(LedgerUpdate(cm.instruct.uuid, codec.marshalIcmp(cm.instruct.icmpInspectReply).text, 1))
  {
  }

  // ---------------------------------------------------------------------
  // ProcessClientMessage: a stream of received frames applied to the ledger
  // ---------------------------------------------------------------------

  /** One received frame, the time it was handled, and whether the ledger
      write it may cause goes through. */
  datatype Delivery = Delivery(frame: Frame, now: int, writeOk: bool)

  /** The delivery decodes to an instruction reply for `uuid`. */
  predicate Mentions(d: Delivery, uuid: string, codec: Codec)
  {
    var m := codec.unmarshalReport(d.frame);
    m.Some? && m.value.kind == ClientInstructReply && m.value.instruct.uuid == uuid
  }

  /** Handles one frame: undecodable frames and frames asking for no update
      leave the table alone; a failed write is only logged. */
  function Apply(table: Ledger.Table, d: Delivery, codec: Codec): (r: Ledger.Table)
    ensures |r| == |table|
    // a frame that does not decode, or asks for no update, or whose write fails changes nothing
    ensures codec.unmarshalReport(d.frame).None? ==> r == table
    ensures codec.unmarshalReport(d.frame).Some? && UpdateFor(codec.unmarshalReport(d.frame).value, codec).None? ==> r == table
    ensures !d.writeOk ==> r == table
    // only the rows keyed by the reply's uuid change, and only in reply, result and update time
    ensures forall i :: 0 <= i < |table| ==> Ledger.SameIdentity(r[i], table[i])
    ensures forall i :: 0 <= i < |table| && r[i] != table[i] ==> Mentions(d, table[i].uuid, codec)
    // such a row is settled to 1 or -1 according to the agent's report, at the handling time,
    // and stores the report's reply text
    ensures d.writeOk && codec.unmarshalReport(d.frame).Some?
            && UpdateFor(codec.unmarshalReport(d.frame).value, codec).Some? ==>
              var cm := codec.unmarshalReport(d.frame).value;
              forall i :: 0 <= i < |table| && table[i].uuid == cm.instruct.uuid ==>
                && (r[i].result == 1 <==> cm.instruct.result)
                && (r[i].result == -1 <==> !cm.instruct.result)
                && r[i].reply == UpdateFor(cm, codec).value.reply
                && r[i].result == UpdateFor(cm, codec).value.result
                && r[i].updateTime == d.now
  {
    match codec.unmarshalReport(d.frame)
    case None => table
    case Some(cm) =>
      match UpdateFor(cm, codec)
      case None => table
      case Some(u) => Ledger.UpdateInstruct(table, u.uuid, u.reply, u.result, d.now, d.writeOk).1
  }

  /** `ProcessClientMessage` over the frames delivered so far, oldest first. */
  function ProcessClientMessage(table: Ledger.Table, ds: seq<Delivery>, codec: Codec): (r: Ledger.Table)
    ensures |r| == |table|
    ensures forall i :: 0 <= i < |table| ==> Ledger.SameIdentity(r[i], table[i])
    // a row that no delivered reply names is left as it was
    ensures forall i :: 0 <= i < |table| && (forall k :: 0 <= k < |ds| ==> !Mentions(ds[k], table[i].uuid, codec)) ==>
              r[i] == table[i]
    decreases |ds|
  {
    if |ds| == 0 then table
    else ProcessClientMessage(Apply(table, ds[0], codec), ds[1..], codec)
  }

  /** A single delivery is handled by exactly one `Apply`. */
  lemma {:induction false} ProcessSingle(table: Ledger.Table, d: Delivery, codec: Codec)
    ensures ProcessClientMessage(table, [d], codec) == Apply(table, d, codec)
  {
    assert [d][1..] == [];
  }

  /** Deliveries are applied one after another in arrival order: the last one
      is applied to the table the earlier ones left. */
  lemma ProcessSnoc(table: Ledger.Table, ds: seq<Delivery>, d: Delivery, codec: Codec)
    ensures ProcessClientMessage(table, ds + [d], codec) == Apply(ProcessClientMessage(table, ds, codec), d, codec)
  {
    ProcessAppend(table, ds, [d], codec);
    ProcessSingle(ProcessClientMessage(table, ds, codec), d, codec);
  }

  lemma {:induction false} ProcessAppend(table: Ledger.Table, a: seq<Delivery>, b: seq<Delivery>, codec: Codec)
    ensures ProcessClientMessage(table, a + b, codec)
         == ProcessClientMessage(ProcessClientMessage(table, a, codec), b, codec)
    decreases |a|
  {
    if |a| > 0 {
      assert (a + b)[1..] == a[1..] + b;
      ProcessAppend(Apply(table, a[0], codec), a[1..], b, codec);
    } else {
      assert a + b == b;
    }
  }

  /** A failed ledger write does not stop the loop: the frames after it are
      processed against the table as it was before the failure. */
  lemma WriteFailureOnlyLogged(table: Ledger.Table, a: seq<Delivery>, d: Delivery, b: seq<Delivery>, codec: Codec)
    requires !d.writeOk
    ensures ProcessClientMessage(table, a + [d] + b, codec)
         == ProcessClientMessage(ProcessClientMessage(table, a, codec), b, codec)
  {
    var one := [d];
    ProcessAppend(table, a + one, b, codec);
    ProcessAppend(table, a, one, codec);
    var mid := ProcessClientMessage(table, a, codec);
    assert one[1..] == [];
    assert ProcessClientMessage(mid, one, codec) == ProcessClientMessage(Apply(mid, d, codec), [], codec);
  }

  /** Reports that ask for no update (echoes, screenshots, unknown kinds,
      unknown instruction types) never change the ledger. */
  lemma NonReplyReportsIgnored(table: Ledger.Table, d: Delivery, codec: Codec, cm: ClientMessage)
    requires codec.unmarshalReport(d.frame) == Some(cm)
    requires cm.kind != ClientInstructReply || TypeOfCode(cm.instruct.itype).None?
    ensures Apply(table, d, codec) == table
  {
  }

  // ---------------------------------------------------------------------
  // ReceiveMessage: the session read loop
  // ---------------------------------------------------------------------

  /** The outcome of one read on the connection. */
  datatype ReadResult = Received(frame: Frame) | ReadFailed(normalClosure: bool)

  /** What the read loop forwarded for processing, and whether it closed
      the session's `done` signal. */
  datatype ReceiveRun = ReceiveRun(forwarded: seq<Frame>, doneClosed: bool)

  /** `ReceiveMessage`: frames that decode are forwarded unchanged, frames
      that do not are dropped; the first read error of either kind closes
      `done` and ends the loop. */
  function ReceiveMessage(results: seq<ReadResult>, codec: Codec): (r: ReceiveRun)
    ensures |r.forwarded| <= |results|
    ensures r.doneClosed <==> exists k :: 0 <= k < |results| && results[k].ReadFailed?
    ensures forall k :: 0 <= k < |r.forwarded| ==> codec.unmarshalReport(r.forwarded[k]).Some?
    ensures r.forwarded == Decodable(Before(results), codec)
    decreases |results|
  {
    if |results| == 0 then ReceiveRun([], false)
    else
      match results[0]
      case ReadFailed(_) => ReceiveRun([], true)
      case Received(f) =>
        var rest := ReceiveMessage(results[1..], codec);
        assert forall k :: 1 <= k < |results| ==> results[k] == results[1..][k - 1];
        if codec.unmarshalReport(f).Some? then ReceiveRun([f] + rest.forwarded, rest.doneClosed)
        else rest
  }

  /** The frames read before the first read error, in order. */
  function Before(results: seq<ReadResult>): (r: seq<Frame>)
    ensures |r| <= |results|
  {
    if |results| == 0 || results[0].ReadFailed? then []
    else [results[0].frame] + Before(results[1..])
  }

  /** The frames of `fs` that decode as a client message, in order. */
  function Decodable(fs: seq<Frame>, codec: Codec): seq<Frame>
  {
    if |fs| == 0 then []
    else (if codec.unmarshalReport(fs[0]).Some? then [fs[0]] else []) + Decodable(fs[1..], codec)
  }

  /** Nothing read after an error is forwarded. */
  lemma {:induction false} NothingAfterReadError(a: seq<ReadResult>, failed: ReadResult, b: seq<ReadResult>, codec: Codec)
    requires failed.ReadFailed?
    ensures ReceiveMessage(a + [failed] + b, codec).forwarded == ReceiveMessage(a + [failed], codec).forwarded
    decreases |a|
  {
    if |a| > 0 {
      assert (a + [failed] + b)[1..] == a[1..] + [failed] + b;
      assert (a + [failed])[1..] == a[1..] + [failed];
      NothingAfterReadError(a[1..], failed, b, codec);
    } else {
      assert a + [failed] + b == [failed] + b;
      assert a + [failed] == [failed];
    }
  }

  /** An undecodable frame is dropped without closing the session: the loop
      behaves as if it had never been read. */
  lemma UndecodableFrameDropped(bad: Frame, results: seq<ReadResult>, codec: Codec)
    requires codec.unmarshalReport(bad).None?
    ensures ReceiveMessage([Received(bad)] + results, codec) == ReceiveMessage(results, codec)
  {
    assert ([Received(bad)] + results)[1..] == results;
  }
}
